=== FILE: README.md ===
# Chess game review: a Dafny model

This project models the review logic of a small chess-analysis web application.
A user pastes or imports a game (PGN). A Flask backend turns it into one
record per move. A React review screen then steps through the moves,
annotates each one and gives coach feedback. The screen also keeps the
stored "last viewed move" in step with the position on display. The model
covers:

- the review screen (`frontend/src/GameAnalysis.js`): its state, the move
  list click, the previous/next buttons, loading a stored analysis,
  analysing a PGN, the move classifier, the coach feedback and the chart
  data (modules `Review` and `Annotation`);
- the pure parts of the backend handlers (`backend/app.py`):
  - the per-move record list;
  - validation and defaults when saving;
  - the update document;
  - the history query;
  - the Chess.com truncation

  (modules `Backend` and `Store`);
- the two import screens (`frontend/src/components/Dashboard.js`,
  `frontend/src/ImportGames.js`) and the list they share (modules
  `Dashboard`, `ImportGames`, `ImportList`);
- the wire formats in between (`Api`, `Records`, `Json`), small text
  helpers (`Text`) and mapping over sequences (`Seqs`);
- cross-cutting consequences that follow when a request built by a screen is
  read by a handler (`Flows`).

Every handler is a pure function. It maps the current state and the replies
to its requests onto the next state, the requests sent and the route
navigated to. Network replies are datatypes listing what can come back.
These are left as parameters:

- the chess library's PGN reader;
- the board's FEN after a prefix of moves;
- the position evaluator;
- the `toFixed(2)` rendering;
- the clock;
- the Chess.com HTTP calls.

What the code does, as the model keeps it:

- The classifier takes the absolute evaluation gap (`Math.abs`). Its
  `Excellent` branch is therefore dead (`Annotation.NeverExcellent`), and a
  signed scenario such as a gap of -1.3 is a Mistake, not Excellent.
- The review screen has no comment editing and no comment-save path.
  Comments exist only as stored values passed through the save, history and
  update handlers.
- Position syncs are fire-and-forget. There is no sequencing to model.
- The update endpoint validates the body and builds a `$set` document of
  `last_viewed_move` and `comments` only
  (`Flows.ViewedSyncPassesValidation`). The database write after it names
  `ObjectId`, which `backend/app.py` never imports, so the write itself
  fails and no position is stored.
- Re-analysing a stored analysis sends the new moves to the update endpoint.
  Its `$set` document drops them (`Flows.ReanalysisMovesAreDropped`), and the
  failing write stores nothing in any case.

## Model

| member | source | states |
|---|---|---|
| Annotation.Classify | frontend/src/GameAnalysis.js:137-142 | with d the absolute gap: Blunder iff d > 2, Mistake iff 0.5 < d <= 2, Normal iff d <= 0.5, never Excellent |
| Annotation.MoveAnnotation | frontend/src/GameAnalysis.js:137-143 | the shown symbol/colour/label is `??`/red/Blunder iff gap > 2, `?!`/orange/Mistake iff 0.5 < gap <= 2, empty/black/Normal iff gap <= 0.5 |
| Annotation.BoundariesFallToMilderSide | frontend/src/GameAnalysis.js:139-140 | a gap of exactly 2 is a Mistake and of exactly 0.5 is Normal, in either direction |
| Annotation.NeverExcellent | frontend/src/GameAnalysis.js:138-141 | the Excellent annotation is returned for no move |
| Annotation.ThreeMoveScenario | frontend/src/GameAnalysis.js:138-141 | scores (0.2, 0.1), (3.5, 0.2), (-1.0, 0.3) classify as Normal, Blunder, Mistake: a played line 1.3 better than the engine's is a Mistake, not Excellent |
| Annotation.ClassifySymmetric | frontend/src/GameAnalysis.js:138 | swapping the played and best-move scores leaves the verdict unchanged |
| Annotation.ClassifyMonotone | frontend/src/GameAnalysis.js:138-142 | a wider gap never yields a less severe verdict |
| Annotation.CoachFeedback | frontend/src/GameAnalysis.js:146-160 | no follow-up when the played move is the best move; otherwise follow-up iff the verdict is Blunder or Mistake; the message opens with the verdict label and ": " |
| Annotation.FollowUpIffSuboptimalAndGap | frontend/src/GameAnalysis.js:150-158 | the follow-up button shows iff the played move differs from the best move and the gap exceeds 0.5 |
| Annotation.ChartData | frontend/src/GameAnalysis.js:163-174 | one label and one data point per move: label i+1 and the move's evaluation |
| Annotation.ChartLabelsAreMoveNumbers | frontend/src/GameAnalysis.js:164 | for a well-numbered analysis the chart labels equal the records' move numbers |
| Review.ViewedSync | frontend/src/GameAnalysis.js:112-118 | a `last_viewed_move` update carrying the index is sent iff the route names a stored analysis (set, non-empty, not `new`) |
| Review.MoveClick | frontend/src/GameAnalysis.js:109-119 | a click on list index i shows move i and its board position, sends the sync for i, and changes nothing else |
| Review.MoveChange | frontend/src/GameAnalysis.js:121-134 | the neighbouring index is applied (with position and sync) iff it lies in [0, len); otherwise state unchanged and nothing sent |
| Review.MoveChangeKeepsPositioned | frontend/src/GameAnalysis.js:121-134 | stepping from a shown move keeps the index in range and the board on that move's position |
| Review.BoundaryStepsAreNoOps | frontend/src/GameAnalysis.js:123 | Previous at index 0 and Next at the last index change nothing and send nothing |
| Review.NextThenPrev | frontend/src/GameAnalysis.js:122-125 | an accepted Next followed by Previous restores the state |
| Review.StepsKeepPositioned | frontend/src/GameAnalysis.js:121-134 | any run of presses stays in range, sends at most one sync per press, none for an unsaved analysis |
| Review.HandleAnalyze | frontend/src/GameAnalysis.js:57-107 | empty PGN: only the prompt error; non-empty analysis: index 0, first position, then a save with position 0 and no comments for an unsaved route (and navigation to the new id) or a position-0 update for a stored one; the error is cleared when that request gets any reply and becomes "Error analyzing game: " + reason with no navigation when it gets none; an empty move list sets analysis [] and index 0 and the missing-first-record error, with no further request; the other failures change only the error, each to its own text |
| Review.AnalyzeSuccessPositions | frontend/src/GameAnalysis.js:72-76 | a successful analysis leaves the screen on move 0 showing its position |
| Review.FindIndex | frontend/src/GameAnalysis.js:37 | the index of the first history entry with the id, none iff no entry has it |
| Review.FindById | frontend/src/GameAnalysis.js:37 | the entry found carries the id and is in the list; none iff no entry has the id |
| Review.StoredFen | frontend/src/GameAnalysis.js:44 | the stored position is shown iff the index is in range and its FEN is non-empty, otherwise null |
| Review.Load | frontend/src/GameAnalysis.js:28-55 | nothing for an unsaved route; otherwise the history is fetched; a failed fetch sets only "Failed to load analysis history: " + message; a missing entry sets "Analysis not found"; an analysed entry is shown at `last_viewed_move`, or 0 when it is falsy, with no further request; an unanalysed one asks for the analysis of its PGN right after the history request; a stored route never navigates and never sends a save |
| Review.LoadUnanalysedRunsAnalysis | frontend/src/GameAnalysis.js:45-47 | opening an entry without analysis is exactly the history request followed by the analyse handler run on its PGN with the stored id, on the screen showing that PGN |
| Review.LoadUnanalysedPositions | frontend/src/GameAnalysis.js:45-75 | in any history, the entry found without analysis whose PGN gets a non-empty analysis opens positioned on move 0 of it |
| Review.LoadInRangePositions | frontend/src/GameAnalysis.js:40-44 | in any history, the entry found whose stored index is in range and whose position text there is non-empty opens positioned on that move |
| Backend.AnalyzeGame | backend/app.py:232-261 | falsy PGN: 400 "No PGN provided"; unreadable: 400 "Invalid PGN"; else one record per mainline move, numbered 1..n, best move = played move, evaluation = predicted evaluation |
| Backend.SaveAnalysis | backend/app.py:188-209 | rejected with 400 iff username or pgn is falsy; otherwise analysis, last_viewed_move and comments default to [], 0, [] when their keys are absent |
| Backend.HistoryItemOf | backend/app.py:217-227 | a history element carries the document's id, pgn, analysis, position and timestamp, and its stored comments, or [] when it has none |
| Backend.GetAnalysisHistory | backend/app.py:215-229 | at most 10 of the user's entries, newest first, as many as the user has up to 10, no omitted entry newer than a returned one, and no entry returned more often than the user's documents yield it |
| Store.Latest | backend/app.py:216 | the user's documents, newest first, limited to 10, a sub-multiset of the user's documents, with every omitted document of the user no newer than every kept one |
| Store.SortByTime | backend/app.py:216 | the sort is a permutation of its input in non-increasing timestamp order |
| Store.LatestHeadIsNewest | backend/app.py:216 | when the user has a document, the first history entry is at least as new as it |
| Backend.NewestSaveIsListed | backend/app.py:202-229 | a document stored after every other one is the first entry of its owner's history |
| Backend.UpdateLastViewed | backend/app.py:264-274 | 400 iff `last_viewed_move` is missing or null; the update holds `last_viewed_move`, holds `comments` iff sent non-null, and no other key |
| Backend.PgnsOf | backend/app.py:180-181 | only games with a truthy `pgn` contribute, each contributing its own pgn |
| Backend.PgnsOfComplete | backend/app.py:180-181 | every game with a truthy `pgn` contributes it |
| Backend.PgnsOfInOrder | backend/app.py:180-181 | the result is the `pgn`s of exactly the games whose `pgn` is truthy, in archive order (an increasing list of their positions) |
| Backend.ChesscomGames | backend/app.py:154-185 | empty username: 400; archives fetched for the lower-cased name; archive error or no archives: error; else the last <= 10 truthy PGNs of the last 3 archives, in order |
| Text.Trim | frontend/src/components/Dashboard.js:80 | the trimmed name is a contiguous piece of the name with only JavaScript whitespace before and after it; it is empty iff the name is all whitespace, and otherwise neither starts nor ends with whitespace |
| Text.TrimIdempotent | frontend/src/components/Dashboard.js:86 | trimming the trimmed name changes nothing |
| Text.Lower | backend/app.py:159 | same length, each ASCII upper-case letter replaced by its lower-case letter, other characters unchanged |
| Text.NatToString | frontend/src/components/Dashboard.js:93 | the number in a title is decimal digits with no leading zero |
| Text.NatToStringRoundTrip | frontend/src/components/Dashboard.js:93 | reading the rendered digits gives back the number |
| ImportList.LastN | frontend/src/components/Dashboard.js:92 | `slice(-n)` for n > 0: min(len, n) elements, a suffix of the input |
| ImportList.TitledGames | frontend/src/components/Dashboard.js:92-95 | entry i carries PGN i unchanged, titled `Game <i+1> - <name>` |
| ImportList.TitlesDistinct | frontend/src/ImportGames.js:25-28 | distinct positions get distinct titles |
| Dashboard.ImportGame | frontend/src/components/Dashboard.js:79-108 | blank name: prompt error and no request; else the trimmed name is requested; ok with games: the last <= 10 titled with the typed name, name and error cleared; otherwise `data.error` or the no-games text |
| Dashboard.ErrorText | frontend/src/components/Dashboard.js:100 | the error shown is never empty |
| Dashboard.ErrorTextPrefersServerError | frontend/src/components/Dashboard.js:100 | the reply's `error` is shown when it is a non-empty string, otherwise the no-games text |
| Dashboard.GameAnalysisClick | frontend/src/components/Dashboard.js:65-72 | popup iff history is empty, else navigation to the first entry's id |
| Dashboard.ImportedGameClick | frontend/src/components/Dashboard.js:245-259 | the body is the game's PGN with no analysis, position 0 and no comments; navigation iff a reply arrives |
| Api.FreshSaveBody | frontend/src/ImportGames.js:50-56 | the save body of an imported game: its PGN, analysis [], last_viewed_move 0, comments [] |
| Api.SaveJson | frontend/src/ImportGames.js:63 | the JSON body has `username` (the name) iff the user is known, and always the PGN text, the moves (reading back unchanged), the position and the comments, and no other key |
| Api.UpdateJson | frontend/src/GameAnalysis.js:116 | the update body always carries the position, `analysis` (reading back as the moves sent) only when one is sent, and no other key |
| Api.DecodeHistoryItem | frontend/src/GameAnalysis.js:37-44 | an entry decodes iff its PGN is a string, its moves decode and its position is null or an integer; the result keeps the id, PGN text and moves, with position none exactly for null |
| Records.DecodeEncodeAll | backend/app.py:249-257 | a move list written with the wire keys reads back unchanged |
| ImportGames.HandleImport | frontend/src/ImportGames.js:12-38 | empty name: prompt and no request; an error reply sets the message and keeps the list; otherwise the last <= 10 titled games and `Imported n game(s).` with n the list length |
| ImportGames.HandleGameClick | frontend/src/ImportGames.js:40-79 | the fixed save body; ok reply: navigation to the id; any other outcome: "Failed to contact server." |
| ImportGames.HandleGameClickIntended | frontend/src/ImportGames.js:66-70 | a rejected save reports `Failed to save game: ` with the server error |
| ImportGames.RejectedSaveLosesServerError | frontend/src/ImportGames.js:66-72 | on every rejected save the page as written says "Failed to contact server.", which the intended message never is |
| Flows.ViewedSyncPassesValidation | backend/app.py:266-274 | every position sync of the review screen passes validation, and its `$set` document holds only the position |
| Flows.ReanalysisMovesAreDropped | frontend/src/GameAnalysis.js:93-97 | re-analysis sends `analysis`, but the update handler keeps only `last_viewed_move: 0` |
| Flows.FailedUpdateLeavesNoError | frontend/src/GameAnalysis.js:93-97 | the update reply is never read: a failed (500, `ok` false) update leaves the new analysis shown with no error and no navigation |
| Flows.ImportedGameIsAnalysedOnOpen | frontend/src/GameAnalysis.js:40-47 | a game stored from an import list comes back from its history entry with no moves, and opening it in any history that holds it requests its analysis |
| Flows.SaveWithoutUsernameIsRefused | backend/app.py:197-200 | a save body without `username` is refused with 400, and the import page reports that refusal as a connection failure |
| Flows.StoredAnalysisRoundTrip | frontend/src/GameAnalysis.js:79-88 | an analysis saved by the review screen comes back from its history entry unchanged and reopens on move 0 in any history that holds it |
| Flows.SavedAnalysisHeadsHistory | backend/app.py:187-229 | a body with a name and a PGN is stored, and a document stored after every other one is the first entry of its owner's history |
| Flows.GoOpensNewest | frontend/src/components/Dashboard.js:65-68 | "Go" opens the user's newest stored analysis |
| Flows.PlaceholderAnalysisIsAllNormal | backend/app.py:251-255 | every move of a backend analysis is annotated Normal and offers no follow-up |

## Findings

| source | as written | input that shows it | evidently intended | confidence | as-written member | corrected member |
|---|---|---|---|---|---|---|
| frontend/src/ImportGames.js:66-72 | a rejected save reads `data` before its `const` declaration, the `ReferenceError` is caught, and the page says "Failed to contact server." | any reply with `ok` false and a JSON body, e.g. the handler's 400 `{"error": "Missing username or pgn"}` for a body without `username`; the shipped page always sends the logged-in name and truthy Chess.com PGNs, and the save route's other failures are HTML pages that fail at `response.json()` either way, so in the shipped system the discrepancy is latent: it appears only if the save route gains JSON error replies this page can reach | show `Failed to save game: <errorData.error or 'Unknown error'>` | high (not executed) | ImportGames.HandleGameClick | ImportGames.HandleGameClickIntended |

## Left out

- Rendering (MUI layout, the board widget, Chart.js options and styling) and the loading flags; only the index/length relation of the chart data is kept.
- All network and storage effects: `fetch`, Flask routing, MongoDB queries and inserts, and the Chess.com requests and their headers. They appear as reply datatypes, request values and function parameters. Store identifiers and the clock are parameters.
- The chess library: PGN parsing, `board.push` and `board.fen()` are the parameters `readGame` and `fenAfter`. The placeholder evaluator returning 0.5 is the parameter `evaluate`. Records depend on the evaluator only through the position, so the model holds for any evaluator.
- Floating point: evaluations are reals and the thresholds are stated on the exact real difference. `toFixed(2)` is the parameter `fixed2`, so the digits of the feedback text are not modelled.
- Ordering and overtaking of the unawaited position syncs. The code does not sequence them, so nothing about their order holds.
- Flows.ViewedSyncPassesValidation: stops at validation and the `$set` document. The MongoDB write of `update_last_viewed` (backend/app.py:276-279) uses `ObjectId`, which the file never imports, so the write fails and the position is not stored; the model states nothing about storage.
- The commented-out first version of the backend (backend/app.py:1-128), login, registration, routing, the form wrapper and the image-based move prediction screen.
- The dashboard's initial history fetch and its popup on an empty history (frontend/src/components/Dashboard.js:52-63). They are not part of the review logic.
- Bodies that are not JSON objects, and history entries whose fields have unexpected types. The screen checks no types: a numeric `pgn` would be stored as is, a string `last_viewed_move` such as "2" would be used as the index, and a record without `board_fen` gives a null position; only a null or absent `analysis` throws (at `.length`) and lands in the load error. None of these entries is modelled. Also left out: the exact text of JavaScript exception messages other than the missing-record one. A failed history load carries its message as a parameter.
- Text.Lower: lower-cases ASCII letters only, because Python's `str.lower` follows the full Unicode case tables, which are not modelled.
- Store.Latest: ISO-8601 timestamps are modelled as integers in time order. The order of documents with equal timestamps is left unspecified, as MongoDB leaves it. Ownership is string equality on `username`: MongoDB's `find({"username": name})` also matches a document whose `username` is an array holding the name, which the save handler stores when another client sends one; such documents are not modelled, so the history can hold entries the model omits.
- ImportList.LastN: defined for n > 0 only. At n = 0 `slice(-0)` returns the whole list, a case the code never reaches (it uses 3 and 10).

=== FILE: annotation.dfy ===
/** The read-side projections of the review screen: the move annotation, the
    coach feedback and the evaluation chart. */
module Annotation {
  import opened Records

  datatype Verdict = Blunder | Mistake | Excellent | Normal

  /** What the screen shows for a verdict. */
  datatype Mark = Mark(symbol: string, color: string, message: string)

  function Abs(x: real): (r: real)
    ensures r >= 0.0 && (r == x || r == -x)
  {
    if x < 0.0 then -x else x
  }

  /** The evaluation gap of a move: how far the played move's score lies from
      the engine's best-move score, in either direction. */
  function Gap(m: MoveRecord): (g: real) {
    Abs(m.evaluation - m.predictedEvaluation)
  }

  /** The classifier, branch for branch: the gap is an absolute value, so the
      `Excellent` branch, which asks for a gap below -0.5, is never taken. */
  function Classify(evaluation: real, predicted: real): (v: Verdict)
    ensures v == Blunder <==> Abs(evaluation - predicted) > 2.0
    ensures v == Mistake <==> 0.5 < Abs(evaluation - predicted) <= 2.0
    ensures v == Normal <==> Abs(evaluation - predicted) <= 0.5
    ensures v != Excellent
  {
    var d := Abs(evaluation - predicted);
    if d > 2.0 then Blunder
    else if d > 0.5 then Mistake
    else if d < -0.5 then Excellent
    else Normal
  }

  function MarkOf(v: Verdict): (m: Mark) {
    match v
    case Blunder => Mark("??", "red", "Blunder")
    case Mistake => Mark("?!", "orange", "Mistake")
    case Excellent => Mark("!!", "green", "Excellent")
    case Normal => Mark("", "black", "Normal")
  }

  /** The annotation of a move: a blunder above a gap of 2, a mistake above
      0.5, and otherwise normal, with the boundary values on the milder side. */
  function MoveAnnotation(m: MoveRecord): (a: Mark)
    ensures a == Mark("??", "red", "Blunder") <==> Gap(m) > 2.0
    ensures a == Mark("?!", "orange", "Mistake") <==> 0.5 < Gap(m) <= 2.0
    ensures a == Mark("", "black", "Normal") <==> Gap(m) <= 0.5
  {
    MarkOf(Classify(m.evaluation, m.predictedEvaluation))
  }

  /** The exact boundaries: a gap of exactly 2 is a mistake, of exactly 0.5 normal. */
  lemma BoundariesFallToMilderSide(e: real)
    ensures Classify(e + 2.0, e) == Mistake && Classify(e, e + 2.0) == Mistake
    ensures Classify(e + 0.5, e) == Normal && Classify(e, e + 0.5) == Normal
  {
  }

  /** `Excellent` is unreachable, whatever the scores. */
  lemma NeverExcellent(m: MoveRecord)
    ensures MoveAnnotation(m).message != "Excellent"
  {
  }

  /** Three moves with gaps 0.1, 3.3 and 1.3: the last, played better than
      the engine's line, is still a mistake, because the sign is discarded. */
  lemma ThreeMoveScenario()
    ensures Classify(0.2, 0.1) == Normal
    ensures Classify(3.5, 0.2) == Blunder
    ensures Classify(-1.0, 0.3) == Mistake
  {
  }

  /** Swapping the played and best-move scores changes nothing, because only
      the absolute gap matters. */
  lemma ClassifySymmetric(e: real, p: real)
    ensures Classify(e, p) == Classify(p, e)
  {
  }

  function Severity(v: Verdict): (n: nat) {
    match v
    case Normal => 0
    case Excellent => 0
    case Mistake => 1
    case Blunder => 2
  }

  /** A wider gap never yields a milder verdict. */
  lemma ClassifyMonotone(e1: real, p1: real, e2: real, p2: real)
    requires Abs(e1 - p1) <= Abs(e2 - p2)
    ensures Severity(Classify(e1, p1)) <= Severity(Classify(e2, p2))
  {
  }

  /** Coach feedback: a message and whether the follow-up button shows. */
  datatype Feedback = Feedback(message: string, showFollowUp: bool)

  /** The coach's text for a move. `fixed2` stands for JavaScript's
      `toFixed(2)` rendering of the gap, whose digits are not modelled. */
  function CoachFeedback(m: MoveRecord, fixed2: real -> string): (f: Feedback)
    ensures m.playedMove == m.predictedBestMove ==> !f.showFollowUp
    ensures m.playedMove != m.predictedBestMove ==>
      (f.showFollowUp <==> MoveAnnotation(m).message in {"Blunder", "Mistake"})
    ensures |f.message| > |MoveAnnotation(m).message| + 2
    ensures f.message[..|MoveAnnotation(m).message| + 2] == MoveAnnotation(m).message + ": "
  {
    var name := MoveAnnotation(m).message;
    if m.playedMove != m.predictedBestMove then
      Feedback(name + ": Your move (" + m.playedMove + ") was suboptimal. The best move was "
               + m.predictedBestMove + ", improving the position by " + fixed2(Gap(m)) + ".",
               name == "Blunder" || name == "Mistake")
    else
      Feedback(name + ": Great move with " + m.playedMove + "! It maintains a solid position.", false)
  }

  /** The follow-up button shows exactly for a move that differs from the
      engine's choice by a gap above 0.5. */
  lemma FollowUpIffSuboptimalAndGap(m: MoveRecord, fixed2: real -> string)
    ensures CoachFeedback(m, fixed2).showFollowUp <==>
      m.playedMove != m.predictedBestMove && Gap(m) > 0.5
  {
  }

  /** The data of the evaluation graph: one point per move. */
  datatype Chart = Chart(labels: seq<int>, data: seq<real>)

  function ChartData(a: seq<MoveRecord>): (c: Chart)
    ensures |c.labels| == |a| && |c.data| == |a|
    ensures forall i :: 0 <= i < |a| ==> c.labels[i] == i + 1 && c.data[i] == a[i].evaluation
  {
    Chart(seq(|a|, i requires 0 <= i < |a| => i + 1),
          seq(|a|, i requires 0 <= i < |a| => a[i].evaluation))
  }

  /** For a well-numbered analysis the chart's labels are the move numbers. */
  lemma ChartLabelsAreMoveNumbers(a: seq<MoveRecord>)
    requires WellNumbered(a)
    ensures forall i :: 0 <= i < |a| ==> ChartData(a).labels[i] == a[i].moveNumber
  {
  }
}

=== FILE: api.dfy ===
/** The request bodies the frontend sends and the replies it reads, with their
    JSON forms as the backend receives them. */
module Api {
  import opened Common
  import opened Json
  import opened Records

  /** The body of `POST /api/save-analysis`. `username` is the page's
      `username` property. The routes of `App.js` render the import and
      review pages only after a login, so they always pass a non-empty name;
      `None` stands for a body without the key, as `JSON.stringify` writes it
      for `undefined`, which only another client would send. */
  datatype SaveBody = SaveBody(
    username: Option<string>,
    pgn: string,
    analysis: seq<MoveRecord>,
    lastViewedMove: int,
    comments: seq<Value>)

  function SaveJson(b: SaveBody): (d: map<string, Value>)
    ensures "username" in d <==> b.username.Some?
    ensures "username" in d ==> d["username"] == JStr(b.username.value)
    ensures "pgn" in d && d["pgn"] == JStr(b.pgn)
    ensures "analysis" in d && d["analysis"].JArr? && DecodeAll(d["analysis"].items) == Some(b.analysis)
    ensures "last_viewed_move" in d && AsInt(d["last_viewed_move"]) == Some(b.lastViewedMove)
    ensures "comments" in d && d["comments"] == JArr(b.comments)
    ensures d.Keys <= {"username", "pgn", "analysis", "last_viewed_move", "comments"}
  {
    DecodeEncodeAll(b.analysis);
    AsIntOfInt(b.lastViewedMove);
    var d := map[
      "pgn" := JStr(b.pgn),
      "analysis" := JArr(EncodeAll(b.analysis)),
      "last_viewed_move" := Int(b.lastViewedMove),
      "comments" := JArr(b.comments)];
    if b.username.Some? then d["username" := JStr(b.username.value)] else d
  }

  /** The body sent when a game is stored before any analysis exists: no
      moves, first move viewed, no comments. Both import screens send it. */
  function FreshSaveBody(username: Option<string>, pgn: string): (b: SaveBody)
    ensures b.username == username && b.pgn == pgn
    ensures b.analysis == [] && b.lastViewedMove == 0 && b.comments == []
  {
    SaveBody(username, pgn, [], 0, [])
  }

  /** The body of `POST /api/update-last-viewed/{id}`. */
  datatype UpdateBody = UpdateBody(lastViewedMove: int, analysis: Option<seq<MoveRecord>>)

  function UpdateJson(b: UpdateBody): (d: map<string, Value>)
    ensures "last_viewed_move" in d && d["last_viewed_move"] == Int(b.lastViewedMove)
    ensures "analysis" in d <==> b.analysis.Some?
    ensures "analysis" in d ==> d["analysis"].JArr? && DecodeAll(d["analysis"].items) == b.analysis
    ensures d.Keys <= {"last_viewed_move", "analysis"}
  {
    var d := map["last_viewed_move" := Int(b.lastViewedMove)];
    if b.analysis.Some? then
      DecodeEncodeAll(b.analysis.value);
      d["analysis" := JArr(EncodeAll(b.analysis.value))]
    else d
  }

  /** One element of the `history` array of `GET /api/analysis-history/{user}`. */
  datatype HistoryItemJson = HistoryItemJson(
    id: string,
    pgn: Value,
    analysis: Value,
    lastViewedMove: Value,
    comments: Value,
    timestamp: int)

  /** A history element as the review screen reads it. `lastViewedMove` is
      `None` for a `null` position. */
  datatype HistoryItem = HistoryItem(
    id: string,
    pgn: string,
    analysis: seq<MoveRecord>,
    lastViewedMove: Option<int>)

  /** Reads a history element; `None` when its fields have unexpected shapes. */
  function DecodeHistoryItem(j: HistoryItemJson): (r: Option<HistoryItem>)
    ensures r.Some? <==> j.pgn.JStr? && j.analysis.JArr? && DecodeAll(j.analysis.items).Some?
                         && (j.lastViewedMove == JNull || AsInt(j.lastViewedMove).Some?)
    ensures r.Some? ==> r.value.id == j.id && j.pgn == JStr(r.value.pgn)
                        && Some(r.value.analysis) == DecodeAll(j.analysis.items)
                        && (r.value.lastViewedMove.None? <==> j.lastViewedMove == JNull)
                        && (r.value.lastViewedMove.Some? ==> j.lastViewedMove == Int(r.value.lastViewedMove.value))
  {
    if !j.pgn.JStr? || !j.analysis.JArr? then None
    else
      match DecodeAll(j.analysis.items)
      case None => None
      case Some(a) =>
        if j.lastViewedMove == JNull then Some(HistoryItem(j.id, j.pgn.s, a, None))
        else
          match AsInt(j.lastViewedMove)
          case None => None
          case Some(n) => Some(HistoryItem(j.id, j.pgn.s, a, Some(n)))
  }

  /** How a `POST` that stores or updates a saved analysis ended: no usable
      reply, or a reply with its `ok` flag and the `id` and `error` fields of
      its body. For the store request `Unreachable` is a network failure or a
      body that is not JSON (the screen reads it). For the update request the
      screen never reads the body, so every HTTP reply, the 500 page the
      update handler always answers included, is `Replied`, and only a
      network failure is `Unreachable`. */
  datatype PostReply =
    | Unreachable(reason: string)
    | Replied(ok: bool, id: Option<string>, error: Option<string>)

  /** The route `/analysis/${id}`; an absent id renders as `undefined`. */
  function AnalysisPath(id: Option<string>): (path: string) {
    "/analysis/" + id.GetOr("undefined")
  }
}

=== FILE: backend.dfy ===
/** The pure parts of the Flask request handlers: validation, defaults, the
    per-move record list, the update document, the history projection and the
    Chess.com import truncation. Storage, the chess library and outgoing HTTP
    calls are parameters. */
module Backend {
  import opened Common
  import opened Json
  import opened Records
  import opened Api
  import opened Store
  import Text
  import ImportList
  import Seqs

  const NoPgnError := "No PGN provided"
  const InvalidPgnError := "Invalid PGN"
  /** Flask's answer to an uncaught exception in a handler. */
  const InternalError := HttpError(500, "Internal Server Error")
  const PlaceholderComment := "Placeholder analysis"

  /** The record of the move at `k`: the engine's best move and score are
      placeholders equal to the played move and its score. */
  function RecordAt(moves: seq<string>, k: nat, fenAfter: seq<string> -> string,
                    evaluate: seq<string> -> real): (r: MoveRecord)
    requires k < |moves|
  {
    var prefix := moves[..k + 1];
    MoveRecord(k + 1, moves[k], fenAfter(prefix), evaluate(prefix),
               moves[k], evaluate(prefix), PlaceholderComment)
  }

  /** Every record recommends the move that was played, at the same score. */
  predicate PlaceholderAdvice(a: seq<MoveRecord>) {
    forall i :: 0 <= i < |a| ==>
      a[i].predictedBestMove == a[i].playedMove && a[i].evaluation == a[i].predictedEvaluation
  }

  /** `POST /api/analyze_game`. `readGame` is `chess.pgn.read_game` yielding
      the mainline moves (`None` when the text holds no game), `fenAfter` the
      board's FEN after a prefix of the moves, and `evaluate` the evaluator of
      the position after a prefix. */
  method AnalyzeGame(body: map<string, Value>, readGame: string -> Option<seq<string>>,
                     fenAfter: seq<string> -> string, evaluate: seq<string> -> real)
    returns (r: Result<seq<MoveRecord>, HttpError>)
    ensures !PyTruthy(PyGet(body, "pgn")) ==> r == Err(HttpError(400, NoPgnError))
    ensures PyTruthy(PyGet(body, "pgn")) && !body["pgn"].JStr? ==> r == Err(InternalError)
    ensures PyTruthy(PyGet(body, "pgn")) && body["pgn"].JStr? ==>
      match readGame(body["pgn"].s)
      case None => r == Err(HttpError(400, InvalidPgnError))
      case Some(moves) =>
        && r.Ok?
        && |r.value| == |moves|
        && WellNumbered(r.value)
        && PlaceholderAdvice(r.value)
        && forall k :: 0 <= k < |moves| ==> r.value[k] == RecordAt(moves, k, fenAfter, evaluate)
  {
    var pgn := PyGet(body, "pgn");
    if !PyTruthy(pgn) {
      return Err(HttpError(400, NoPgnError));
    }
    if !pgn.JStr? {
      // `StringIO` refuses a value that is not text.
      return Err(InternalError);
    }
    var game := readGame(pgn.s);
    if game.None? {
      return Err(HttpError(400, InvalidPgnError));
    }
    var moves := game.value;
    var analysis: seq<MoveRecord> := [];
    var moveNumber := 1;
    var k := 0;
    while k < |moves|
      invariant 0 <= k <= |moves|
      invariant moveNumber == k + 1
      invariant |analysis| == k
      invariant forall j :: 0 <= j < k ==> analysis[j] == RecordAt(moves, j, fenAfter, evaluate)
    {
      var board := moves[..k + 1];
      analysis := analysis + [MoveRecord(moveNumber, moves[k], fenAfter(board), evaluate(board),
                                         moves[k], evaluate(board), PlaceholderComment)];
      moveNumber := moveNumber + 1;
      k := k + 1;
    }
    return Ok(analysis);
  }

  const MissingFieldsError := "Missing username or pgn"

  /** `POST /api/save-analysis`: the document to insert. Username and PGN must
      be truthy; a missing `analysis`, `last_viewed_move` or `comments` key
      defaults to `[]`, `0` and `[]`, while a key sent as `null` is kept.
      `now` is the insertion time. */
  function SaveAnalysis(body: map<string, Value>, now: int): (r: Result<Entry, HttpError>)
    ensures r.Err? <==> !PyTruthy(PyGet(body, "username")) || !PyTruthy(PyGet(body, "pgn"))
    ensures r.Err? ==> r.error == HttpError(400, MissingFieldsError)
    ensures r.Ok? ==>
      && r.value.username == body["username"] && r.value.pgn == body["pgn"]
      && r.value.analysis == (if "analysis" in body then body["analysis"] else JArr([]))
      && r.value.lastViewedMove == (if "last_viewed_move" in body then body["last_viewed_move"] else Int(0))
      && r.value.comments == Some(if "comments" in body then body["comments"] else JArr([]))
      && r.value.timestamp == now
  {
    var username := PyGet(body, "username");
    var pgn := PyGet(body, "pgn");
    var analysis := PyGetOr(body, "analysis", JArr([]));
    var lastViewed := PyGetOr(body, "last_viewed_move", Int(0));
    var comments := PyGetOr(body, "comments", JArr([]));
    if !PyTruthy(username) || !PyTruthy(pgn) then Err(HttpError(400, MissingFieldsError))
    else Ok(Entry(username, pgn, analysis, lastViewed, Some(comments), now))
  }

  /** One history element: the stored fields, with `[]` for a document without comments. */
  function HistoryItemOf(d: Doc): (j: HistoryItemJson)
    ensures j.id == d.oid && j.pgn == d.entry.pgn && j.analysis == d.entry.analysis
    ensures j.lastViewedMove == d.entry.lastViewedMove && j.timestamp == d.entry.timestamp
    ensures d.entry.comments.None? ==> j.comments == JArr([])
    ensures d.entry.comments.Some? ==> j.comments == d.entry.comments.value
  {
    HistoryItemJson(d.oid, d.entry.pgn, d.entry.analysis, d.entry.lastViewedMove,
                    d.entry.comments.GetOr(JArr([])), d.entry.timestamp)
  }

  /** `j` is the history element of one of the user's stored documents. */
  predicate ItemOfUser(store: seq<Doc>, username: string, j: HistoryItemJson) {
    exists k :: 0 <= k < |store| && OwnedBy(store[k], username) && j == HistoryItemOf(store[k])
  }

  /** `GET /api/analysis-history/{username}`: the user's ten newest analyses,
      newest first. */
  function GetAnalysisHistory(store: seq<Doc>, username: string): (h: seq<HistoryItemJson>)
    ensures |h| <= HistoryLimit
    ensures forall i, j :: 0 <= i < j < |h| ==> h[i].timestamp >= h[j].timestamp
    ensures forall i :: 0 <= i < |h| ==> ItemOfUser(store, username, h[i])
    ensures |h| == if |Owned(store, username)| < HistoryLimit then |Owned(store, username)| else HistoryLimit
    ensures forall k, i ::
      0 <= k < |store| && OwnedBy(store[k], username) && HistoryItemOf(store[k]) !in h && 0 <= i < |h| ==>
        store[k].entry.timestamp <= h[i].timestamp
    ensures multiset(h) <= multiset(Seqs.Map(HistoryItemOf, Owned(store, username)))
  {
    var docs := Latest(store, username);
    var h := Seqs.Map(HistoryItemOf, docs);
    ProjectionOwned(store, username, docs, h);
    ProjectionNewest(store, username, docs, h);
    Seqs.MapSubMultiset(HistoryItemOf, docs, Owned(store, username));
    h
  }

  /** A document stored after every other one heads its owner's history. */
  lemma NewestSaveIsListed(store: seq<Doc>, username: string, d: Doc)
    requires OwnedBy(d, username)
    requires forall x :: x in store ==> x.entry.timestamp < d.entry.timestamp
    ensures var h := GetAnalysisHistory(store + [d], username);
      |h| > 0 && h[0] == HistoryItemOf(d)
  {
    var all := store + [d];
    assert all[|store|] == d;
    LatestHeadIsNewest(all, username, d);
    var newest := Latest(all, username);
    assert newest[0] in multiset(newest);
    assert newest[0] in multiset(Owned(all, username));
    assert newest[0] in all;
    assert newest[0] !in store;
  }

  lemma ProjectionNewest(store: seq<Doc>, username: string, docs: seq<Doc>, h: seq<HistoryItemJson>)
    requires docs == Latest(store, username)
    requires |h| == |docs| && forall i :: 0 <= i < |h| ==> h[i] == HistoryItemOf(docs[i])
    ensures forall i, j :: 0 <= i < j < |h| ==> h[i].timestamp >= h[j].timestamp
    ensures forall k, i ::
      0 <= k < |store| && OwnedBy(store[k], username) && HistoryItemOf(store[k]) !in h && 0 <= i < |h| ==>
        store[k].entry.timestamp <= h[i].timestamp
  {
    assert forall k :: 0 <= k < |store| && store[k] in docs ==> HistoryItemOf(store[k]) in h;
  }

  lemma ProjectionOwned(store: seq<Doc>, username: string, docs: seq<Doc>, h: seq<HistoryItemJson>)
    requires forall k :: 0 <= k < |docs| ==> docs[k] in store && OwnedBy(docs[k], username)
    requires |h| == |docs| && forall i :: 0 <= i < |h| ==> h[i] == HistoryItemOf(docs[i])
    ensures forall i :: 0 <= i < |h| ==> ItemOfUser(store, username, h[i])
  {
  }

  const MissingLastViewedError := "Missing last_viewed_move"

  /** `POST /api/update-last-viewed/{id}`: the `$set` document. The position
      is required (`null` counts as missing); the comments are set only when
      sent; every other key, `analysis` included, is dropped. */
  function UpdateLastViewed(body: map<string, Value>): (r: Result<map<string, Value>, HttpError>)
    ensures r.Err? <==> PyGet(body, "last_viewed_move") == JNull
    ensures r.Err? ==> r.error == HttpError(400, MissingLastViewedError)
    ensures r.Ok? ==>
      && r.value.Keys <= {"last_viewed_move", "comments"}
      && "last_viewed_move" in r.value && r.value["last_viewed_move"] == body["last_viewed_move"]
      && ("comments" in r.value <==> PyGet(body, "comments") != JNull)
      && ("comments" in r.value ==> r.value["comments"] == body["comments"])
  {
    var lastViewed := PyGet(body, "last_viewed_move");
    var comments := PyGet(body, "comments");
    if lastViewed == JNull then Err(HttpError(400, MissingLastViewedError))
    else
      var update := map["last_viewed_move" := lastViewed];
      if comments != JNull then Ok(update["comments" := comments]) else Ok(update)
  }

  /** A Chess.com reply: its status and the decoded body's list (archive URLs
      or games; `[]` when the key is absent). */
  datatype ChessComReply<T> = ChessComReply(status: int, items: seq<T>)

  const NoUsernameError := "No Chess.com username provided"
  const ArchivesError := "Error fetching archives from Chess.com."
  const NoGamesError := "No games found"
  const ArchiveWindow := 3
  const GamesLimit := 10

  function ArchivesUrl(username: string): (url: string) {
    "https://api.chess.com/pub/player/" + username + "/games/archives"
  }

  /** `x` is the `pgn` of one of the games. */
  predicate PgnOfSome(games: seq<map<string, Value>>, x: Value) {
    exists k :: 0 <= k < |games| && "pgn" in games[k] && games[k]["pgn"] == x
  }

  /** The PGNs of one archive's games, skipping games whose `pgn` is falsy. */
  function PgnsOf(games: seq<map<string, Value>>): (r: seq<Value>)
    ensures |r| <= |games|
    ensures forall i :: 0 <= i < |r| ==> PyTruthy(r[i]) && PgnOfSome(games, r[i])
  {
    if games == [] then []
    else
      var g := games[|games| - 1];
      var front := PgnsOf(games[..|games| - 1]);
      var last := if PyTruthy(PyGet(g, "pgn")) then [g["pgn"]] else [];
      PgnOfPrefix(games, front);
      front + last
  }

  /** `idx` lists, in increasing order, the positions of exactly the games
      with a truthy `pgn`, and `r` holds their PGNs in that order. */
  predicate PicksTruthyPgns(games: seq<map<string, Value>>, r: seq<Value>, idx: seq<int>) {
    && |idx| == |r|
    && (forall i :: 0 <= i < |idx| ==>
          0 <= idx[i] < |games| && PyGet(games[idx[i]], "pgn") == r[i] && PyTruthy(r[i]))
    && (forall i, j :: 0 <= i < j < |idx| ==> idx[i] < idx[j])
    && (forall k :: 0 <= k < |games| && PyTruthy(PyGet(games[k], "pgn")) ==> k in idx)
  }

  /** The list comprehension keeps every game with a truthy `pgn`, drops the
      rest, and keeps the archive's order. */
  lemma {:induction false} PgnsOfInOrder(games: seq<map<string, Value>>)
    ensures exists idx :: PicksTruthyPgns(games, PgnsOf(games), idx)
  {
    if games == [] {
      assert PicksTruthyPgns(games, PgnsOf(games), []);
    } else {
      var n := |games| - 1;
      PgnsOfInOrder(games[..n]);
      var idx :| PicksTruthyPgns(games[..n], PgnsOf(games[..n]), idx);
      ExtendPicks(games, PgnsOf(games[..n]), idx);
      if PyTruthy(PyGet(games[n], "pgn")) {
        assert PgnsOf(games) == PgnsOf(games[..n]) + [PyGet(games[n], "pgn")];
        assert PicksTruthyPgns(games, PgnsOf(games), idx + [n]);
      } else {
        assert PgnsOf(games) == PgnsOf(games[..n]);
        assert PicksTruthyPgns(games, PgnsOf(games), idx);
      }
    }
  }

  /** Every game with a truthy `pgn` contributes it. */
  lemma {:induction false} PgnsOfComplete(games: seq<map<string, Value>>)
    ensures forall k :: 0 <= k < |games| && PyTruthy(PyGet(games[k], "pgn")) ==> PyGet(games[k], "pgn") in PgnsOf(games)
  {
    PgnsOfInOrder(games);
    var idx :| PicksTruthyPgns(games, PgnsOf(games), idx);
    forall k | 0 <= k < |games| && PyTruthy(PyGet(games[k], "pgn"))
      ensures PyGet(games[k], "pgn") in PgnsOf(games)
    {
      var i :| 0 <= i < |idx| && idx[i] == k;
      assert PgnsOf(games)[i] == PyGet(games[k], "pgn");
    }
  }

  /** One more game extends a selection of the games before it. */
  lemma ExtendPicks(games: seq<map<string, Value>>, r: seq<Value>, idx: seq<int>)
    requires games != [] && PicksTruthyPgns(games[..|games| - 1], r, idx)
    ensures var n := |games| - 1;
      if PyTruthy(PyGet(games[n], "pgn")) then PicksTruthyPgns(games, r + [PyGet(games[n], "pgn")], idx + [n])
      else PicksTruthyPgns(games, r, idx)
  {
    var n := |games| - 1;
    assert forall k :: 0 <= k < n ==> games[..n][k] == games[k];
  }

  lemma PgnOfPrefix(games: seq<map<string, Value>>, front: seq<Value>)
    requires games != []
    requires forall i :: 0 <= i < |front| ==> PgnOfSome(games[..|games| - 1], front[i])
    ensures forall i :: 0 <= i < |front| ==> PgnOfSome(games, front[i])
  {
  }

  /** The PGNs of the archives in order; an archive whose status is not 200 adds none. */
  function Collected(urls: seq<string>, fetch: string -> ChessComReply<map<string, Value>>): (r: seq<Value>)
    ensures forall i :: 0 <= i < |r| ==> PyTruthy(r[i])
  {
    if urls == [] then []
    else
      var reply := fetch(urls[|urls| - 1]);
      Collected(urls[..|urls| - 1], fetch) + (if reply.status == 200 then PgnsOf(reply.items) else [])
  }

  /** `GET /api/chesscom/games?username=...`. The username is lower-cased for
      the archive list; only the last three archives are read; the answer is
      the last ten PGNs found, in their original order. */
  method ChesscomGames(username: Option<string>,
                       fetchArchives: string -> ChessComReply<string>,
                       fetchGames: string -> ChessComReply<map<string, Value>>)
    returns (r: Result<seq<Value>, HttpError>)
    ensures username.None? || username.value == "" ==> r == Err(HttpError(400, NoUsernameError))
    ensures username.Some? && username.value != "" ==>
      var archives := fetchArchives(ArchivesUrl(Text.Lower(username.value)));
      if archives.status != 200 then r == Err(HttpError(archives.status, ArchivesError))
      else if archives.items == [] then r == Err(HttpError(404, NoGamesError))
      else r == Ok(ImportList.LastN(Collected(ImportList.LastN(archives.items, ArchiveWindow), fetchGames), GamesLimit))
    ensures r.Ok? ==> |r.value| <= GamesLimit && forall i :: 0 <= i < |r.value| ==> PyTruthy(r.value[i])
  {
    if username.None? || username.value == "" {
      return Err(HttpError(400, NoUsernameError));
    }
    var name := Text.Lower(username.value);
    var archives := fetchArchives(ArchivesUrl(name));
    if archives.status != 200 {
      return Err(HttpError(archives.status, ArchivesError));
    }
    if archives.items == [] {
      return Err(HttpError(404, NoGamesError));
    }
    var urls := ImportList.LastN(archives.items, ArchiveWindow);
    var pgns: seq<Value> := [];
    var k := 0;
    while k < |urls|
      invariant 0 <= k <= |urls|
      invariant pgns == Collected(urls[..k], fetchGames)
    {
      var reply := fetchGames(urls[k]);
      if reply.status == 200 {
        pgns := pgns + PgnsOf(reply.items);
      }
      assert urls[..k + 1][..k] == urls[..k];
      k := k + 1;
    }
    assert urls[..k] == urls;
    return Ok(ImportList.LastN(pgns, GamesLimit));
  }
}

=== FILE: common.dfy ===
/** Small failure-carrying datatypes shared by every module of the model. */
module Common {

  /** A value that may be absent: a missing JSON key, an `undefined` JavaScript
      property, or a lookup that found nothing. */
  datatype Option<+T> = None | Some(value: T) {

    /** The wrapped value, or `default` when absent (JavaScript `x || default`
        and Python `d.get(k, default)` for values that are never falsy). */
    function GetOr(default: T): (r: T) {
      match this
      case Some(v) => v
      case None => default
    }
  }

  /** The outcome of a request handler: a value or an error response. */
  datatype Result<+T, +E> = Ok(value: T) | Err(error: E)

  /** An HTTP error response: a status code and the `error` text of its JSON body. */
  datatype HttpError = HttpError(status: int, message: string)
}

=== FILE: dashboard.dfy ===
/** The dashboard's import card and its "Go" button. */
module Dashboard {
  import opened Common
  import opened Api
  import opened Text
  import opened ImportList

  const EmptyNameError := "Please enter a username."
  const NoGamesError := "No games found for this username."
  const FetchError := "Failed to fetch games from Chess.com."

  /** The import card's state: the name typed, the listed games and the error line. */
  datatype ImportCard = ImportCard(importName: string, importedGames: seq<TitledGame>, importError: string)

  /** The reply of `GET /api/chesscom/games`: none (network failure or a body
      that is not JSON), or the status flag with the `games` and `error` fields. */
  datatype GamesReply =
    | GamesUnreachable
    | GamesReplied(ok: bool, games: Option<seq<string>>, error: Option<string>)

  /** The card after an import, and the username requested, if any. */
  datatype ImportStep = ImportStep(card: ImportCard, requested: Option<string>)

  /** `data.error || 'No games found for this username.'`. */
  function ErrorText(error: Option<string>): (t: string)
    ensures t != ""
  {
    if error.Some? && error.value != "" then error.value else NoGamesError
  }

  /** The server's error text is shown whenever it is a non-empty string;
      otherwise the fallback text is. */
  lemma ErrorTextPrefersServerError(error: Option<string>)
    ensures error.Some? && error.value != "" ==> ErrorText(error) == error.value
    ensures error.None? || error.value == "" ==> ErrorText(error) == NoGamesError
  {
  }

  /** The import button. A blank name only sets the prompt. Otherwise the
      trimmed name is requested; a successful reply with games lists the last
      ten, titled with the name as typed, and clears the name and the error;
      any other reply sets the error. */
  function ImportGame(c: ImportCard, reply: GamesReply): (s: ImportStep)
    ensures AllWhitespace(c.importName) ==> s == ImportStep(c.(importError := EmptyNameError), None)
    ensures !AllWhitespace(c.importName) ==> s.requested == Some(Trim(c.importName))
    ensures !AllWhitespace(c.importName) && reply.GamesReplied? && reply.ok
            && reply.games.Some? && |reply.games.value| > 0 ==>
      var listed := s.card.importedGames;
      && |listed| == (if |reply.games.value| < 10 then |reply.games.value| else 10)
      && (forall i :: 0 <= i < |listed| ==>
            listed[i].title == Title(i, c.importName)
            && listed[i].pgn == reply.games.value[|reply.games.value| - |listed| + i])
      && s.card.importName == "" && s.card.importError == ""
    ensures !AllWhitespace(c.importName) && reply.GamesReplied?
            && !(reply.ok && reply.games.Some? && |reply.games.value| > 0) ==>
      s.card == c.(importError := ErrorText(reply.error))
    ensures !AllWhitespace(c.importName) && reply.GamesUnreachable? ==>
      s.card == c.(importError := FetchError)
  {
    if Trim(c.importName) == "" then ImportStep(c.(importError := EmptyNameError), None)
    else
      var asked := Some(Trim(c.importName));
      match reply
      case GamesUnreachable => ImportStep(c.(importError := FetchError), asked)
      case GamesReplied(ok, games, error) =>
        if ok && games.Some? && |games.value| > 0 then
          var last := LastN(games.value, 10);
          ImportStep(ImportCard("", TitledGames(last, c.importName), ""), asked)
        else ImportStep(c.(importError := ErrorText(error)), asked)
  }

  /** What the "Go" button does. */
  datatype GoAction = NavigateTo(path: string) | OpenPopup

  /** "Go" opens the first (most recent) stored analysis, or the popup when
      there is none. */
  function GameAnalysisClick(history: seq<HistoryItemJson>): (g: GoAction)
    ensures history == [] <==> g == OpenPopup
    ensures history != [] ==> g == NavigateTo(AnalysisPath(Some(history[0].id)))
  {
    if |history| > 0 then NavigateTo(AnalysisPath(Some(history[0].id))) else OpenPopup
  }

  /** A click on an imported game: the game is stored with no analysis and the
      screen moves to the id in the reply. The reply's status is not checked,
      and a failed request leaves everything as it was. */
  datatype SaveClick = SaveClick(sent: SaveBody, navigateTo: Option<string>)

  function ImportedGameClick(username: Option<string>, game: TitledGame, reply: PostReply): (c: SaveClick)
    ensures c.sent == FreshSaveBody(username, game.pgn)
    ensures reply.Replied? <==> c.navigateTo.Some?
    ensures reply.Replied? ==> c.navigateTo.value == AnalysisPath(reply.id)
  {
    var body := FreshSaveBody(username, game.pgn);
    match reply
    case Unreachable(_) => SaveClick(body, None)
    case Replied(_, id, _) => SaveClick(body, Some(AnalysisPath(id)))
  }
}

=== FILE: flows.dfy ===
/** Properties that span the screens and the backend: what a request built by
    the frontend becomes once a handler has read it. */
module Flows {
  import opened Common
  import opened Json
  import opened Records
  import opened Api
  import opened Store
  import opened Annotation
  import Review
  import Backend
  import Dashboard
  import ImportGames
  import ImportList

  /** Every position sync the review screen sends passes the update handler's
      validation, and the `$set` document built from it holds only the
      position. The database write after it (backend/app.py:276-279) names
      `ObjectId`, which the file never imports, so the position is not
      stored. */
  lemma ViewedSyncPassesValidation(index: int)
    ensures Backend.UpdateLastViewed(UpdateJson(UpdateBody(index, None)))
            == Ok(map["last_viewed_move" := Int(index)])
  {
  }

  /** Re-analysing a stored analysis sends the new moves with position 0, but
      the update handler keeps only the position: the stored moves stay as
      they were. */
  lemma ReanalysisMovesAreDropped(v: Review.View, id: Option<string>, username: Option<string>,
                                  pgn: string, a: seq<MoveRecord>, persist: PostReply)
    requires Review.IsSaved(id) && pgn != "" && |a| > 0
    ensures var s := Review.HandleAnalyze(v, id, username, pgn, Review.AnalyzeOk(Some(a)), persist);
      && s.sent[1].UpdateViewed?
      && "analysis" in UpdateJson(s.sent[1].update)
      && Backend.UpdateLastViewed(UpdateJson(s.sent[1].update)) == Ok(map["last_viewed_move" := Int(0)])
  {
  }

  /** The update request's reply is never read: the 500 reply the update
      handler answers (its database write fails) leaves the re-analysed screen
      without an error. */
  lemma FailedUpdateLeavesNoError(v: Review.View, id: Option<string>, username: Option<string>,
                                  pgn: string, a: seq<MoveRecord>)
    requires Review.IsSaved(id) && pgn != "" && |a| > 0
    ensures var s := Review.HandleAnalyze(v, id, username, pgn, Review.AnalyzeOk(Some(a)),
                                          Replied(false, None, None));
      s.view.error == "" && s.view.analysis == a && s.navigateTo.None?
  {
  }

  /** A game stored from an import list comes back from its history entry
      with no analysis (the entry heads the history, by
      `SavedAnalysisHeadsHistory`), so opening it on the review screen,
      whatever else the history holds, asks the engine to analyse its PGN. */
  lemma ImportedGameIsAnalysedOnOpen(username: string, pgn: string, now: int, oid: string,
                                     items: seq<HistoryItem>,
                                     v: Review.View, reply: Review.AnalyzeReply, persist: PostReply)
    requires username != "" && pgn != "" && Review.IsSaved(Some(oid))
    requires Review.FindById(items, oid) == Some(HistoryItem(oid, pgn, [], Some(0)))
    ensures Backend.SaveAnalysis(SaveJson(FreshSaveBody(Some(username), pgn)), now).Ok?
    ensures var e := Backend.SaveAnalysis(SaveJson(FreshSaveBody(Some(username), pgn)), now).value;
      DecodeHistoryItem(Backend.HistoryItemOf(Doc(oid, e))) == Some(HistoryItem(oid, pgn, [], Some(0)))
    ensures Review.Load(v, Some(oid), Some(username), Review.HistoryOk(items), reply, persist).sent[1]
            == Review.Analyze(pgn)
  {
  }

  /** A save body without `username` is refused with 400, and the import page
      reports that refusal as a connection failure. The routes of `App.js`
      always pass the logged-in name, so such a body comes only from another
      client; the page's reading of the refusal holds for any user. */
  lemma SaveWithoutUsernameIsRefused(pgn: string, now: int, username: Option<string>,
                                     game: ImportList.TitledGame, message: string)
    ensures Backend.SaveAnalysis(SaveJson(FreshSaveBody(None, pgn)), now)
            == Err(HttpError(400, Backend.MissingFieldsError))
    ensures ImportGames.HandleGameClick(username, game, message,
              Replied(false, None, Some(Backend.MissingFieldsError))).message
            == ImportGames.ContactFailedMessage
  {
  }

  /** An analysis stored by the review screen comes back from its history
      entry unchanged (the entry heads the history, by
      `SavedAnalysisHeadsHistory`), and reopening it, whatever else the
      history holds, shows its first move. */
  lemma {:induction false} StoredAnalysisRoundTrip(username: string, pgn: string, a: seq<MoveRecord>,
                                                   now: int, oid: string,
                                                   items: seq<HistoryItem>, v: Review.View,
                                                   reply: Review.AnalyzeReply, persist: PostReply)
    requires username != "" && pgn != "" && |a| > 0 && Review.IsSaved(Some(oid))
    requires Review.FindById(items, oid) == Some(HistoryItem(oid, pgn, a, Some(0)))
    ensures Backend.SaveAnalysis(SaveJson(SaveBody(Some(username), pgn, a, 0, [])), now).Ok?
    ensures var e := Backend.SaveAnalysis(SaveJson(SaveBody(Some(username), pgn, a, 0, [])), now).value;
      DecodeHistoryItem(Backend.HistoryItemOf(Doc(oid, e))) == Some(HistoryItem(oid, pgn, a, Some(0)))
    ensures var s := Review.Load(v, Some(oid), Some(username), Review.HistoryOk(items), reply, persist);
      s.view.analysis == a && s.view.currentMove == 0
  {
    DecodeEncodeAll(a);
    AsIntOfInt(0);
  }

  /** A game the screens store after every document already in the store is
      the first entry of its owner's history. */
  lemma SavedAnalysisHeadsHistory(b: SaveBody, username: string, now: int, oid: string, store: seq<Doc>)
    requires b.username == Some(username) && username != "" && b.pgn != ""
    requires forall x :: x in store ==> x.entry.timestamp < now
    ensures Backend.SaveAnalysis(SaveJson(b), now).Ok?
    ensures var d := Doc(oid, Backend.SaveAnalysis(SaveJson(b), now).value);
      var h := Backend.GetAnalysisHistory(store + [d], username);
      |h| > 0 && h[0] == Backend.HistoryItemOf(d)
  {
    Backend.NewestSaveIsListed(store, username, Doc(oid, Backend.SaveAnalysis(SaveJson(b), now).value));
  }

  /** The dashboard's "Go" opens the user's newest stored analysis. */
  lemma GoOpensNewest(store: seq<Doc>, username: string, d: Doc)
    requires d in store && OwnedBy(d, username)
    ensures var h := Backend.GetAnalysisHistory(store, username);
      && |h| > 0
      && Dashboard.GameAnalysisClick(h) == Dashboard.NavigateTo(AnalysisPath(Some(h[0].id)))
      && d.entry.timestamp <= h[0].timestamp
  {
    Store.LatestHeadIsNewest(store, username, d);
  }

  /** The analysis endpoint's records recommend the played move at the same
      score, so every move of a fresh analysis is annotated Normal and no
      follow-up is offered. */
  lemma PlaceholderAnalysisIsAllNormal(a: seq<MoveRecord>, fixed2: real -> string)
    requires Backend.PlaceholderAdvice(a)
    ensures forall i :: 0 <= i < |a| ==>
      MoveAnnotation(a[i]).message == "Normal" && !CoachFeedback(a[i], fixed2).showFollowUp
  {
  }
}

=== FILE: importgames.dfy ===
/** The import page: fetch a Chess.com user's games and store one of them. */
module ImportGames {
  import opened Common
  import opened Api
  import opened Text
  import opened ImportList

  const EmptyNameMessage := "Please enter your Chess.com username."
  const ImportFailedMessage := "Failed to import games."
  const ContactFailedMessage := "Failed to contact server."

  datatype Page = Page(chessUsername: string, games: seq<TitledGame>, importMessage: string)

  /** The reply of `GET /api/chesscom/games`: none (network failure or a body
      that is not JSON), or the body's `error` and `games` fields. */
  datatype GamesReply = GamesUnreachable | GamesReplied(error: Option<string>, games: Option<seq<string>>)

  datatype ImportStep = ImportStep(page: Page, requested: Option<string>)

  function ImportedMessage(n: nat): (m: string) {
    "Imported " + NatToString(n) + " game(s)."
  }

  /** The import form. An empty name (not trimmed) only sets the prompt.
      Otherwise the name is requested as typed; an `error` in the reply becomes
      the message and the list stays; otherwise the last ten PGNs are listed,
      titled with the name, and the message counts them. A reply without
      `games` fails on `slice` and reports the import failure. */
  function HandleImport(p: Page, reply: GamesReply): (s: ImportStep)
    ensures p.chessUsername == "" ==> s == ImportStep(p.(importMessage := EmptyNameMessage), None)
    ensures p.chessUsername != "" ==> s.requested == Some(p.chessUsername)
    ensures p.chessUsername != "" && reply.GamesReplied? && reply.error.Some? && reply.error.value != "" ==>
      s.page == p.(importMessage := reply.error.value)
    ensures p.chessUsername != "" && reply.GamesReplied? && !(reply.error.Some? && reply.error.value != "")
            && reply.games.Some? ==>
      var listed := s.page.games;
      && |listed| == (if |reply.games.value| < 10 then |reply.games.value| else 10)
      && (forall i :: 0 <= i < |listed| ==>
            listed[i].title == Title(i, p.chessUsername)
            && listed[i].pgn == reply.games.value[|reply.games.value| - |listed| + i])
      && s.page.importMessage == ImportedMessage(|listed|)
      && s.page.chessUsername == p.chessUsername
    ensures p.chessUsername != "" && (reply.GamesUnreachable? ||
              (!(reply.error.Some? && reply.error.value != "") && reply.games.None?)) ==>
      s.page == p.(importMessage := ImportFailedMessage)
  {
    if p.chessUsername == "" then ImportStep(p.(importMessage := EmptyNameMessage), None)
    else
      var asked := Some(p.chessUsername);
      match reply
      case GamesUnreachable => ImportStep(p.(importMessage := ImportFailedMessage), asked)
      case GamesReplied(error, games) =>
        if error.Some? && error.value != "" then ImportStep(p.(importMessage := error.value), asked)
        else if games.None? then ImportStep(p.(importMessage := ImportFailedMessage), asked)
        else
          var listed := TitledGames(LastN(games.value, 10), p.chessUsername);
          ImportStep(p.(games := listed, importMessage := ImportedMessage(|listed|)), asked)
  }

  /** The outcome of a click on a listed game: the body sent, the message and
      the route navigated to. */
  datatype Click = Click(sent: SaveBody, message: string, navigateTo: Option<string>)

  /** A click on a listed game, as written: a reply that is not ok reads the
      body constant `data` before its declaration, the `ReferenceError` is
      caught, and the message blames the connection. */
  function HandleGameClick(username: Option<string>, game: TitledGame, message: string,
                           reply: PostReply): (c: Click)
    ensures c.sent == FreshSaveBody(username, game.pgn)
    ensures reply.Replied? && reply.ok ==> c == Click(c.sent, message, Some(AnalysisPath(reply.id)))
    ensures !(reply.Replied? && reply.ok) ==> c == Click(c.sent, ContactFailedMessage, None)
  {
    var body := FreshSaveBody(username, game.pgn);
    match reply
    case Unreachable(_) => Click(body, ContactFailedMessage, None)
    case Replied(ok, id, _) =>
      if !ok then Click(body, ContactFailedMessage, None)
      else Click(body, message, Some(AnalysisPath(id)))
  }

  /** `Failed to save game: ${errorData.error || 'Unknown error'}`. */
  function SaveFailedMessage(error: Option<string>): (m: string) {
    "Failed to save game: " + (if error.Some? && error.value != "" then error.value else "Unknown error")
  }

  /** The click as the handler evidently intends it: a reply that is not ok
      reports the server's error, and only a failed request blames the
      connection. */
  function HandleGameClickIntended(username: Option<string>, game: TitledGame, message: string,
                                   reply: PostReply): (c: Click)
    ensures c.sent == FreshSaveBody(username, game.pgn)
    ensures reply.Replied? && reply.ok ==> c == Click(c.sent, message, Some(AnalysisPath(reply.id)))
    ensures reply.Replied? && !reply.ok ==> c == Click(c.sent, SaveFailedMessage(reply.error), None)
    ensures reply.Unreachable? ==> c == Click(c.sent, ContactFailedMessage, None)
  {
    var body := FreshSaveBody(username, game.pgn);
    match reply
    case Unreachable(_) => Click(body, ContactFailedMessage, None)
    case Replied(ok, id, error) =>
      if !ok then Click(body, SaveFailedMessage(error), None)
      else Click(body, message, Some(AnalysisPath(id)))
  }

  /** The two differ on every reply that is not ok: the server's error never
      reaches the page as written. */
  lemma RejectedSaveLosesServerError(username: Option<string>, game: TitledGame, message: string,
                                     ok: bool, id: Option<string>, error: Option<string>)
    requires !ok
    ensures HandleGameClick(username, game, message, Replied(ok, id, error)).message == ContactFailedMessage
    ensures HandleGameClickIntended(username, game, message, Replied(ok, id, error)).message
            != ContactFailedMessage
  {
    var intended := SaveFailedMessage(error);
    assert intended[10] == 's' && ContactFailedMessage[10] == 'c';
  }
}

=== FILE: importlist.dfy ===
/** The import lists both import screens build from the Chess.com games:
    the last ten PGNs, each titled `Game <i+1> - <name>`. */
module ImportList {
  import opened Text

  /** `s.slice(-n)` in JavaScript and `s[-n:]` in Python for `n > 0`: the
      last `n` elements, or all of them when there are fewer. (At `n = 0`
      both return all of `s`; the code only uses 3 and 10.) */
  function LastN<T>(s: seq<T>, n: nat): (r: seq<T>)
    requires n > 0
    ensures |r| == if |s| < n then |s| else n
    ensures s == s[..|s| - |r|] + r
  {
    if |s| > n then s[|s| - n..] else s
  }

  datatype TitledGame = TitledGame(title: string, pgn: string)

  function Title(i: nat, name: string): (t: string) {
    "Game " + NatToString(i + 1) + " - " + name
  }

  /** The titled list: entry `i` carries the `i`-th PGN unchanged, titled
      with its 1-based position and the name. */
  function TitledGames(pgns: seq<string>, name: string): (r: seq<TitledGame>)
    ensures |r| == |pgns|
    ensures forall i :: 0 <= i < |pgns| ==> r[i] == TitledGame(Title(i, name), pgns[i])
  {
    seq(|pgns|, i requires 0 <= i < |pgns| => TitledGame(Title(i, name), pgns[i]))
  }

  /** A title's number stops where the ` - ` separator starts. */
  lemma TitleShape(i: nat, name: string)
    ensures var t := Title(i, name); var d := NatToString(i + 1);
      && |t| > 5 + |d|
      && t[..5] == "Game "
      && t[5..5 + |d|] == d
      && t[5 + |d|] == ' '
  {
  }

  /** Different positions get different titles. */
  lemma TitlesDistinct(i: nat, j: nat, name: string)
    requires i != j
    ensures Title(i, name) != Title(j, name)
  {
    var di, dj := NatToString(i + 1), NatToString(j + 1);
    TitleShape(i, name);
    TitleShape(j, name);
    if Title(i, name) == Title(j, name) {
      var t := Title(i, name);
      if |di| == |dj| {
        assert di == t[5..5 + |di|] == dj;
        NatToStringInjective(i + 1, j + 1);
      }
    }
  }
}

=== FILE: json.dfy ===
/** JSON values as they cross the HTTP boundary, with the truthiness rules of
    the two languages that read them. */
module Json {
  import opened Common

  datatype Value =
    | JNull
    | JBool(b: bool)
    | JNum(n: real)
    | JStr(s: string)
    | JArr(items: seq<Value>)
    | JObj(fields: map<string, Value>)

  /** Python's `bool(x)` on a decoded JSON value: `None`, `False`, zero, the
      empty string, the empty list and the empty dict are falsy. */
  predicate PyTruthy(v: Value) {
    match v
    case JNull => false
    case JBool(b) => b
    case JNum(n) => n != 0.0
    case JStr(s) => s != ""
    case JArr(items) => |items| > 0
    case JObj(fields) => |fields| > 0
  }

  /** Python's `d.get(k)`: a missing key and an explicit `null` both read as `None`. */
  function PyGet(d: map<string, Value>, k: string): (r: Value)
    ensures k !in d ==> r == JNull
    ensures k in d ==> r == d[k]
  {
    if k in d then d[k] else JNull
  }

  /** Python's `d.get(k, default)`: the default replaces a missing key only,
      an explicit `null` is kept. */
  function PyGetOr(d: map<string, Value>, k: string, default: Value): (r: Value)
    ensures k in d ==> r == d[k]
    ensures k !in d ==> r == default
  {
    if k in d then d[k] else default
  }

  /** The JSON number of an integer. */
  function Int(i: int): (v: Value) {
    JNum(i as real)
  }

  /** The integer a JSON number denotes, when it is integral. */
  function AsInt(v: Value): (r: Option<int>)
    ensures r.Some? ==> v == Int(r.value)
  {
    match v
    case JNum(n) => if n == n.Floor as real then Some(n.Floor) else None
    case _ => None
  }

  lemma AsIntOfInt(i: int)
    ensures AsInt(Int(i)) == Some(i)
  {
  }
}

=== FILE: records.dfy ===
/** The per-move record of an analysed game and its JSON wire form. */
module Records {
  import opened Common
  import opened Json

  /** One ply of the analysed game, as built by the analysis endpoint and
      stored in a saved analysis. */
  datatype MoveRecord = MoveRecord(
    moveNumber: int,
    playedMove: string,
    boardFen: string,
    evaluation: real,
    predictedBestMove: string,
    predictedEvaluation: real,
    comment: string)

  /** Move numbers run 1, 2, ..., n in order. */
  predicate WellNumbered(a: seq<MoveRecord>) {
    forall i :: 0 <= i < |a| ==> a[i].moveNumber == i + 1
  }

  /** The JSON object of a record, with the snake_case keys of the wire format. */
  function Encode(r: MoveRecord): (v: Value) {
    JObj(map[
      "move_number" := Int(r.moveNumber),
      "played_move" := JStr(r.playedMove),
      "board_fen" := JStr(r.boardFen),
      "evaluation" := JNum(r.evaluation),
      "predicted_best_move" := JStr(r.predictedBestMove),
      "predicted_evaluation" := JNum(r.predictedEvaluation),
      "comment" := JStr(r.comment)])
  }

  function StrField(f: map<string, Value>, k: string): (r: Option<string>) {
    if k in f && f[k].JStr? then Some(f[k].s) else None
  }

  function NumField(f: map<string, Value>, k: string): (r: Option<real>) {
    if k in f && f[k].JNum? then Some(f[k].n) else None
  }

  /** Reads a record back from JSON; `None` when a key is missing or has the
      wrong kind of value. */
  function Decode(v: Value): (r: Option<MoveRecord>) {
    if !v.JObj? then None
    else
      var f := v.fields;
      var n := if "move_number" in f then AsInt(f["move_number"]) else None;
      var played := StrField(f, "played_move");
      var fen := StrField(f, "board_fen");
      var ev := NumField(f, "evaluation");
      var best := StrField(f, "predicted_best_move");
      var pev := NumField(f, "predicted_evaluation");
      var c := StrField(f, "comment");
      if n.Some? && played.Some? && fen.Some? && ev.Some? && best.Some? && pev.Some? && c.Some? then
        Some(MoveRecord(n.value, played.value, fen.value, ev.value, best.value, pev.value, c.value))
      else None
  }

  lemma DecodeEncode(r: MoveRecord)
    ensures Decode(Encode(r)) == Some(r)
  {
    AsIntOfInt(r.moveNumber);
  }

  /** The JSON array of an analysis. */
  function EncodeAll(a: seq<MoveRecord>): (j: seq<Value>)
    ensures |j| == |a|
    ensures forall i :: 0 <= i < |a| ==> j[i] == Encode(a[i])
  {
    if a == [] then [] else [Encode(a[0])] + EncodeAll(a[1..])
  }

  /** Reads an analysis back from a JSON array; `None` when any element is
      not a record. */
  function DecodeAll(items: seq<Value>): (r: Option<seq<MoveRecord>>)
    ensures r.Some? ==> |r.value| == |items|
  {
    if items == [] then Some([])
    else
      match (Decode(items[0]), DecodeAll(items[1..]))
      case (Some(m), Some(rest)) => Some([m] + rest)
      case _ => None
  }

  /** An analysis survives the JSON round trip through the store unchanged. */
  lemma {:induction false} DecodeEncodeAll(a: seq<MoveRecord>)
    ensures DecodeAll(EncodeAll(a)) == Some(a)
  {
    if a != [] {
      var j := EncodeAll(a);
      assert j[1..] == EncodeAll(a[1..]);
      DecodeEncode(a[0]);
      DecodeEncodeAll(a[1..]);
      assert [a[0]] + a[1..] == a;
    }
  }
}

=== FILE: review.dfy ===
/** The review screen of one analysed game: which move is shown, the board
    position on display, the error line, and the requests the screen sends.
    Each handler is a pure transition from the screen's state and the replies
    of the requests it makes to the next state and the requests sent. */
module Review {
  import opened Common
  import opened Records
  import opened Api

  const EmptyPgnError := "Please enter a PGN."
  const AnalysisFailedError := "Analysis failed."
  const AnalyzeErrorPrefix := "Error analyzing game: "
  /** The message of the error thrown when the analysis reply is not ok. */
  const NotOkReason := "Analysis failed"
  /** V8's message for reading `board_fen` of the missing first record. */
  const MissingFirstRecordReason := "Cannot read properties of undefined (reading 'board_fen')"
  const NotFoundError := "Analysis not found"
  const LoadErrorPrefix := "Failed to load analysis history: "

  /** The screen's state: the PGN text, the analysis, the current move index,
      the board position on display (`null` is `None`) and the error line. */
  datatype View = View(
    pgn: string,
    analysis: seq<MoveRecord>,
    currentMove: int,
    selectedFen: Option<string>,
    error: string)

  /** The requests the screen sends. */
  datatype Request =
    | FetchHistory(username: string)
    | Analyze(pgn: string)
    | SaveNew(save: SaveBody)
    | UpdateViewed(id: string, update: UpdateBody)

  /** A transition's result: the next state, the requests sent in order, and
      the route navigated to, if any. */
  datatype Step = Step(view: View, sent: seq<Request>, navigateTo: Option<string>)

  /** The route's `analysisId` names a stored analysis: it is present, not
      empty and not `new`. */
  predicate IsSaved(id: Option<string>) {
    id.Some? && id.value != "" && id.value != "new"
  }

  /** The `last_viewed_move` sync of a move index, sent only for a stored analysis. */
  function ViewedSync(id: Option<string>, index: int): (r: seq<Request>)
    ensures |r| <= 1
    ensures r != [] <==> IsSaved(id)
    ensures r != [] ==> r[0] == UpdateViewed(id.value, UpdateBody(index, None))
  {
    if IsSaved(id) then [UpdateViewed(id.value, UpdateBody(index, None))] else []
  }

  /** A click on an entry of the move list. The list only offers indices of
      the analysis, so the index is in range. */
  function MoveClick(v: View, id: Option<string>, index: int): (s: Step)
    requires 0 <= index < |v.analysis|
    ensures s.view.currentMove == index
    ensures s.view.selectedFen == Some(v.analysis[index].boardFen)
    ensures s.view.analysis == v.analysis && s.view.pgn == v.pgn && s.view.error == v.error
    ensures s.sent == ViewedSync(id, index) && s.navigateTo.None?
  {
    Step(v.(currentMove := index, selectedFen := Some(v.analysis[index].boardFen)),
         ViewedSync(id, index), None)
  }

  datatype Direction = Prev | Next

  /** The previous/next buttons: the neighbouring index is taken only when it
      is an index of the analysis; otherwise nothing changes and nothing is sent. */
  function MoveChange(v: View, id: Option<string>, dir: Direction): (s: Step)
    ensures var target := if dir == Next then v.currentMove + 1 else v.currentMove - 1;
      if 0 <= target < |v.analysis| then
        && s.view == v.(currentMove := target, selectedFen := Some(v.analysis[target].boardFen))
        && s.sent == ViewedSync(id, target)
      else
        s.view == v && s.sent == []
    ensures s.navigateTo.None?
  {
    var target := if dir == Next then v.currentMove + 1 else v.currentMove - 1;
    if 0 <= target < |v.analysis| then MoveClick(v, id, target) else Step(v, [], None)
  }

  /** The screen shows a move of its analysis, and the board shows that move's position. */
  predicate Positioned(v: View) {
    0 <= v.currentMove < |v.analysis| && v.selectedFen == Some(v.analysis[v.currentMove].boardFen)
  }

  /** Stepping never moves off the analysis: on a positioned screen every step
      leaves it positioned. */
  lemma MoveChangeKeepsPositioned(v: View, id: Option<string>, dir: Direction)
    requires Positioned(v)
    ensures Positioned(MoveChange(v, id, dir).view)
  {
  }

  /** "Previous" on the first move and "Next" on the last are no-ops. */
  lemma BoundaryStepsAreNoOps(v: View, id: Option<string>)
    requires |v.analysis| > 0
    ensures v.currentMove == 0 ==> MoveChange(v, id, Prev) == Step(v, [], None)
    ensures v.currentMove == |v.analysis| - 1 ==> MoveChange(v, id, Next) == Step(v, [], None)
  {
  }

  /** "Next" followed by "Previous" returns to the position shown before. */
  lemma NextThenPrev(v: View, id: Option<string>)
    requires Positioned(v) && v.currentMove + 1 < |v.analysis|
    ensures MoveChange(MoveChange(v, id, Next).view, id, Prev).view == v
  {
  }

  /** The screen after a run of button presses, with all requests sent. */
  function Steps(v: View, id: Option<string>, dirs: seq<Direction>): (s: Step)
    decreases |dirs|
  {
    if dirs == [] then Step(v, [], None)
    else
      var first := MoveChange(v, id, dirs[0]);
      var rest := Steps(first.view, id, dirs[1..]);
      Step(rest.view, first.sent + rest.sent, None)
  }

  /** Any run of button presses keeps the screen positioned, and sends one
      sync per press at most, none at all for an unsaved analysis. */
  lemma {:induction false} StepsKeepPositioned(v: View, id: Option<string>, dirs: seq<Direction>)
    requires Positioned(v)
    ensures Positioned(Steps(v, id, dirs).view)
    ensures |Steps(v, id, dirs).sent| <= |dirs|
    ensures !IsSaved(id) ==> Steps(v, id, dirs).sent == []
    decreases |dirs|
  {
    if dirs != [] {
      MoveChangeKeepsPositioned(v, id, dirs[0]);
      StepsKeepPositioned(MoveChange(v, id, dirs[0]).view, id, dirs[1..]);
    }
  }

  /** The reply of `POST /api/analyze_game`: none (network failure), a reply
      whose status is not ok, or an ok reply whose `analysis` field may be absent. */
  datatype AnalyzeReply =
    | AnalyzeUnreachable(reason: string)
    | AnalyzeNotOk
    | AnalyzeOk(analysis: Option<seq<MoveRecord>>)

  /** Analysing a PGN. An empty PGN only sets the prompt. A non-empty analysis
      resets the screen to its first move and clears the error; it is then
      stored as a new analysis when the route names none (and the screen moves
      to the stored one), or sent with position 0 to the stored one otherwise. */
  function HandleAnalyze(v: View, id: Option<string>, username: Option<string>, pgn: string,
                         reply: AnalyzeReply, persist: PostReply): (s: Step)
    ensures pgn == "" ==> s == Step(v.(error := EmptyPgnError), [], None)
    ensures pgn != "" ==> |s.sent| >= 1 && s.sent[0] == Analyze(pgn)
    ensures pgn != "" && reply.AnalyzeOk? && reply.analysis.Some? && |reply.analysis.value| > 0 ==>
      var a := reply.analysis.value;
      && s.view.analysis == a && s.view.currentMove == 0 && s.view.selectedFen == Some(a[0].boardFen)
      && s.view.pgn == v.pgn
      && (persist.Replied? ==> s.view.error == "")
      && |s.sent| == 2
      && (!IsSaved(id) ==>
            s.sent[1] == SaveNew(SaveBody(username, pgn, a, 0, []))
            && (persist.Replied? ==> s.navigateTo == Some(AnalysisPath(persist.id))))
      && (IsSaved(id) ==> s.sent[1] == UpdateViewed(id.value, UpdateBody(0, Some(a))) && s.navigateTo.None?)
    ensures pgn != "" && reply == AnalyzeOk(Some([])) ==>
      s.view == v.(analysis := [], currentMove := 0, error := AnalyzeErrorPrefix + MissingFirstRecordReason)
      && s.sent == [Analyze(pgn)] && s.navigateTo.None?
    ensures !(pgn != "" && reply.AnalyzeOk? && reply.analysis.Some?) ==>
      s.view == v.(error := s.view.error) && s.navigateTo.None? && |s.sent| <= 1
    ensures pgn != "" && reply.AnalyzeUnreachable? ==> s.view.error == AnalyzeErrorPrefix + reply.reason
    ensures pgn != "" && reply.AnalyzeNotOk? ==> s.view.error == AnalyzeErrorPrefix + NotOkReason
    ensures pgn != "" && reply == AnalyzeOk(None) ==> s.view.error == AnalysisFailedError
    ensures pgn != "" && reply.AnalyzeOk? && reply.analysis.Some? && |reply.analysis.value| > 0
            && persist.Unreachable? ==>
      s.view.error == AnalyzeErrorPrefix + persist.reason && s.navigateTo.None?
  {
    if pgn == "" then Step(v.(error := EmptyPgnError), [], None)
    else
      var asked := [Analyze(pgn)];
      match reply
      case AnalyzeUnreachable(reason) => Step(v.(error := AnalyzeErrorPrefix + reason), asked, None)
      case AnalyzeNotOk => Step(v.(error := AnalyzeErrorPrefix + NotOkReason), asked, None)
      case AnalyzeOk(None) => Step(v.(error := AnalysisFailedError), asked, None)
      case AnalyzeOk(Some(a)) =>
        if |a| == 0 then
          // `[]` is truthy: the analysis and index are set before the first
          // record's position is read and the read throws.
          Step(v.(analysis := [], currentMove := 0, error := AnalyzeErrorPrefix + MissingFirstRecordReason),
               asked, None)
        else
          var shown := v.(analysis := a, currentMove := 0, selectedFen := Some(a[0].boardFen), error := "");
          if !IsSaved(id) then
            var sent := asked + [SaveNew(SaveBody(username, pgn, a, 0, []))];
            match persist
            case Unreachable(reason) => Step(shown.(error := AnalyzeErrorPrefix + reason), sent, None)
            case Replied(_, newId, _) => Step(shown, sent, Some(AnalysisPath(newId)))
          else
            var sent := asked + [UpdateViewed(id.value, UpdateBody(0, Some(a)))];
            match persist
            case Unreachable(reason) => Step(shown.(error := AnalyzeErrorPrefix + reason), sent, None)
            case Replied(_, _, _) => Step(shown, sent, None)
  }

  /** A successful analysis leaves the screen positioned on the first move. */
  lemma AnalyzeSuccessPositions(v: View, id: Option<string>, username: Option<string>, pgn: string,
                                a: seq<MoveRecord>, persist: PostReply)
    requires pgn != "" && |a| > 0
    ensures Positioned(HandleAnalyze(v, id, username, pgn, AnalyzeOk(Some(a)), persist).view)
  {
  }

  /** The reply of `GET /api/analysis-history/{user}`: a failure (network, a
      status that is not ok, or a body without `history`) with its message,
      or the list of stored analyses. */
  datatype HistoryReply = HistoryFailed(reason: string) | HistoryOk(items: seq<HistoryItem>)

  /** The position of the first element with the given id. */
  function FindIndex(items: seq<HistoryItem>, id: string): (r: Option<nat>)
    ensures r.None? <==> forall i :: 0 <= i < |items| ==> items[i].id != id
    ensures r.Some? ==> r.value < |items| && items[r.value].id == id
                        && forall k :: 0 <= k < r.value ==> items[k].id != id
  {
    if items == [] then None
    else if items[0].id == id then Some(0)
    else
      match FindIndex(items[1..], id)
      case None => None
      case Some(i) => Some(i + 1)
  }

  /** `Array.prototype.find`: the first element with the given id. */
  function FindById(items: seq<HistoryItem>, id: string): (r: Option<HistoryItem>)
    ensures r.None? <==> forall i :: 0 <= i < |items| ==> items[i].id != id
    ensures r.Some? ==> r.value.id == id && r.value in items
  {
    match FindIndex(items, id)
    case None => None
    case Some(i) => Some(items[i])
  }

  /** The board position of a stored index: `null` when the index is not an
      index of the analysis or the position text is empty. */
  function StoredFen(a: seq<MoveRecord>, index: int): (r: Option<string>)
    ensures r.Some? <==> 0 <= index < |a| && a[index].boardFen != ""
    ensures r.Some? ==> r.value == a[index].boardFen
  {
    if 0 <= index < |a| && a[index].boardFen != "" then Some(a[index].boardFen) else None
  }

  /** Opening the screen on a route. Nothing happens unless the route names a
      stored analysis; then the history is fetched and the entry with that id
      is shown at its last viewed move (0 when none is recorded), or
      analysed from its PGN when it has no analysis yet. */
  function Load(v: View, id: Option<string>, username: Option<string>, history: HistoryReply,
                reply: AnalyzeReply, persist: PostReply): (s: Step)
    ensures !IsSaved(id) ==> s == Step(v, [], None)
    ensures IsSaved(id) ==> |s.sent| >= 1 && s.sent[0] == FetchHistory(username.GetOr("undefined"))
    ensures IsSaved(id) && history.HistoryFailed? ==>
      s == Step(v.(error := LoadErrorPrefix + history.reason), [FetchHistory(username.GetOr("undefined"))], None)
    ensures IsSaved(id) && history.HistoryOk? && FindById(history.items, id.value).None? ==>
      s == Step(v.(error := NotFoundError), s.sent, None) && |s.sent| == 1
    ensures IsSaved(id) && history.HistoryOk? && FindById(history.items, id.value).Some? ==>
      var e := FindById(history.items, id.value).value;
      && s.view.pgn == e.pgn
      && (|e.analysis| > 0 ==>
            && s.view.analysis == e.analysis
            && s.view.currentMove == e.lastViewedMove.GetOr(0)
            && s.view.selectedFen == StoredFen(e.analysis, e.lastViewedMove.GetOr(0))
            && s.view.error == v.error && |s.sent| == 1 && s.navigateTo.None?)
      && (|e.analysis| == 0 && e.pgn != "" ==> |s.sent| >= 2 && s.sent[1] == Analyze(e.pgn))
    ensures IsSaved(id) ==> s.navigateTo.None? && forall k :: 0 <= k < |s.sent| ==> !s.sent[k].SaveNew?
  {
    if !IsSaved(id) then Step(v, [], None)
    else
      var asked := [FetchHistory(username.GetOr("undefined"))];
      match history
      case HistoryFailed(reason) => Step(v.(error := LoadErrorPrefix + reason), asked, None)
      case HistoryOk(items) =>
        match FindById(items, id.value)
        case None => Step(v.(error := NotFoundError), asked, None)
        case Some(e) =>
          var withPgn := v.(pgn := e.pgn);
          if |e.analysis| > 0 then
            var last := e.lastViewedMove.GetOr(0);
            Step(withPgn.(analysis := e.analysis, currentMove := last,
                          selectedFen := StoredFen(e.analysis, last)), asked, None)
          else
            var s := HandleAnalyze(withPgn, id, username, e.pgn, reply, persist);
            Step(s.view, asked + s.sent, s.navigateTo)
  }

  /** Opening an entry stored without an analysis is the history request
      followed by the analysis of its PGN, on the screen showing that PGN and
      with the stored id, exactly as the analyse button would run it. */
  lemma LoadUnanalysedRunsAnalysis(v: View, id: Option<string>, username: Option<string>,
                                   items: seq<HistoryItem>, e: HistoryItem,
                                   reply: AnalyzeReply, persist: PostReply)
    requires IsSaved(id) && FindById(items, id.value) == Some(e) && |e.analysis| == 0
    ensures var t := HandleAnalyze(v.(pgn := e.pgn), id, username, e.pgn, reply, persist);
      Load(v, id, username, HistoryOk(items), reply, persist)
      == Step(t.view, [FetchHistory(username.GetOr("undefined"))] + t.sent, t.navigateTo)
  {
  }

  /** An entry stored without an analysis opens positioned on the first move
      of the analysis its PGN gets. */
  lemma LoadUnanalysedPositions(v: View, id: Option<string>, username: Option<string>,
                                items: seq<HistoryItem>, e: HistoryItem, a: seq<MoveRecord>,
                                persist: PostReply)
    requires IsSaved(id) && FindById(items, id.value) == Some(e)
    requires |e.analysis| == 0 && e.pgn != "" && |a| > 0
    ensures var w := Load(v, id, username, HistoryOk(items), AnalyzeOk(Some(a)), persist).view;
            Positioned(w) && w.currentMove == 0 && w.analysis == a
  {
  }

  /** An entry stored with an in-range last viewed move opens positioned on it. */
  lemma LoadInRangePositions(v: View, id: Option<string>, username: Option<string>,
                             items: seq<HistoryItem>, e: HistoryItem, reply: AnalyzeReply,
                             persist: PostReply)
    requires IsSaved(id) && FindById(items, id.value) == Some(e)
    requires e.lastViewedMove.Some? && 0 <= e.lastViewedMove.value < |e.analysis|
    requires e.analysis[e.lastViewedMove.value].boardFen != ""
    ensures Positioned(Load(v, id, username, HistoryOk(items), reply, persist).view)
  {
  }
}

=== FILE: seqs.dfy ===
/** Mapping a function over a sequence, and how that interacts with
    multiplicities. Used for the projection of stored documents onto history
    elements. */
module Seqs {

  /** `[f(x) for x in s]`. */
  function Map<T, U>(f: T -> U, s: seq<T>): (r: seq<U>)
    ensures |r| == |s| && forall i :: 0 <= i < |s| ==> r[i] == f(s[i])
  {
    seq(|s|, i requires 0 <= i < |s| => f(s[i]))
  }

  lemma MapConcat<T, U>(f: T -> U, a: seq<T>, b: seq<T>)
    ensures Map(f, a + b) == Map(f, a) + Map(f, b)
  {
  }

  /** The image of `s` is the image of `s[j]` and the image of the rest. */
  lemma MapRemove<T, U>(f: T -> U, s: seq<T>, j: int)
    requires 0 <= j < |s|
    ensures multiset(Map(f, s)) == multiset{f(s[j])} + multiset(Map(f, s[..j] + s[j + 1..]))
  {
    MapSplit(f, s, j);
    MapConcat(f, s[..j], s[j + 1..]);
    MultisetSplit(Map(f, s[..j]), f(s[j]), Map(f, s[j + 1..]));
  }

  lemma MapSplit<T, U>(f: T -> U, s: seq<T>, j: int)
    requires 0 <= j < |s|
    ensures Map(f, s) == Map(f, s[..j]) + [f(s[j])] + Map(f, s[j + 1..])
  {
  }

  lemma MultisetSplit<T>(a: seq<T>, x: T, b: seq<T>)
    ensures multiset(a + [x] + b) == multiset{x} + multiset(a + b)
  {
  }

  /** Taking the first element of `a` out of `b` keeps the rest of `a` inside. */
  lemma RemoveFirst<T>(a: seq<T>, b: seq<T>, j: int)
    requires a != [] && 0 <= j < |b| && b[j] == a[0]
    requires multiset(a) <= multiset(b)
    ensures multiset(a[1..]) <= multiset(b[..j] + b[j + 1..])
  {
    var rest := b[..j] + b[j + 1..];
    assert a == [a[0]] + a[1..];
    assert b == b[..j] + [a[0]] + b[j + 1..];
    assert multiset(a) == multiset(a[1..]) + multiset{a[0]};
    assert multiset(b) == multiset(rest) + multiset{a[0]};
    forall y
      ensures multiset(a[1..])[y] <= multiset(rest)[y]
    {
      assert multiset(a)[y] <= multiset(b)[y];
    }
  }

  /** Adding the same element to both sides keeps the inclusion. */
  lemma AddToBoth<T>(m: multiset<T>, n: multiset<T>, e: T, p: multiset<T>, q: multiset<T>)
    requires m == multiset{e} + p && n == multiset{e} + q && p <= q
    ensures m <= n
  {
    forall y
      ensures m[y] <= n[y]
    {
      assert p[y] <= q[y];
    }
  }

  lemma MapCons<T, U>(f: T -> U, s: seq<T>)
    requires s != []
    ensures multiset(Map(f, s)) == multiset{f(s[0])} + multiset(Map(f, s[1..]))
  {
    assert Map(f, s) == [f(s[0])] + Map(f, s[1..]);
  }

  lemma IndexOfFirst<T>(a: seq<T>, b: seq<T>) returns (j: int)
    requires a != [] && multiset(a) <= multiset(b)
    ensures 0 <= j < |b| && b[j] == a[0]
  {
    assert a[0] in multiset(a);
    j :| 0 <= j < |b| && b[j] == a[0];
  }

  /** Mapping keeps multiplicities: elements drawn from `b`, no more often
      than `b` holds them, map to elements drawn from `b`'s image, no more
      often than it holds them. */
  lemma {:induction false} MapSubMultiset<T, U>(f: T -> U, a: seq<T>, b: seq<T>)
    requires multiset(a) <= multiset(b)
    ensures multiset(Map(f, a)) <= multiset(Map(f, b))
    decreases |a|
  {
    if a != [] {
      var j := IndexOfFirst(a, b);
      var rest := b[..j] + b[j + 1..];
      RemoveFirst(a, b, j);
      MapSubMultiset(f, a[1..], rest);
      MapCons(f, a);
      MapRemove(f, b, j);
      AddToBoth(multiset(Map(f, a)), multiset(Map(f, b)), f(a[0]), multiset(Map(f, a[1..])), multiset(Map(f, rest)));
    }
  }
}

=== FILE: store.dfy ===
/** The stored analyses and the history query over them: a user's documents,
    newest first, at most ten. */
module Store {
  import opened Common
  import opened Json

  /** A stored analysis document as `save_analysis` inserts it. `comments` is
      `None` for a document without that key. `timestamp` stands for the
      ISO-8601 text of the insertion time, whose order is the time order. */
  datatype Entry = Entry(
    username: Value,
    pgn: Value,
    analysis: Value,
    lastViewedMove: Value,
    comments: Option<Value>,
    timestamp: int)

  /** A document with the identifier the store assigned to it. */
  datatype Doc = Doc(oid: string, entry: Entry)

  predicate NewestFirst(s: seq<Doc>) {
    forall i, j :: 0 <= i < j < |s| ==> s[i].entry.timestamp >= s[j].entry.timestamp
  }

  /** Putting a document no older than the head in front keeps the order. */
  lemma ConsNewestFirst(x: Doc, s: seq<Doc>)
    requires NewestFirst(s)
    requires s == [] || s[0].entry.timestamp <= x.entry.timestamp
    ensures NewestFirst([x] + s)
  {
  }

  /** Inserts `d` into a newest-first list. */
  function InsertByTime(d: Doc, s: seq<Doc>): (r: seq<Doc>)
    requires NewestFirst(s)
    ensures NewestFirst(r)
    ensures multiset(r) == multiset(s) + multiset{d}
    ensures |r| > 0 && (r[0] == d || (s != [] && r[0] == s[0]))
  {
    if s == [] then [d]
    else if d.entry.timestamp >= s[0].entry.timestamp then [d] + s
    else
      var rest := InsertByTime(d, s[1..]);
      assert s == [s[0]] + s[1..];
      ConsNewestFirst(s[0], rest);
      [s[0]] + rest
  }

  /** The documents sorted newest first. */
  function SortByTime(s: seq<Doc>): (r: seq<Doc>)
    ensures NewestFirst(r)
    ensures multiset(r) == multiset(s)
  {
    if s == [] then []
    else
      assert s == [s[0]] + s[1..];
      InsertByTime(s[0], SortByTime(s[1..]))
  }

  /** The stored `username` is the user's name. MongoDB equality also matches
      an array holding the name; such documents are not modelled. */
  predicate OwnedBy(d: Doc, username: string) {
    d.entry.username == JStr(username)
  }

  /** The documents of one user, in store order (`find({"username": ...})`). */
  function Owned(store: seq<Doc>, username: string): (r: seq<Doc>)
    ensures forall d :: d in r <==> d in store && OwnedBy(d, username)
  {
    if store == [] then []
    else
      var rest := Owned(store[1..], username);
      assert store == [store[0]] + store[1..];
      if OwnedBy(store[0], username) then [store[0]] + rest else rest
  }

  /** The first `n` documents of a newest-first ordering of `owned`: drawn
      from `owned`, still newest first, and no document of `owned` left out is
      newer than one kept. */
  lemma NewestPrefix(owned: seq<Doc>, sorted: seq<Doc>, n: nat)
    requires NewestFirst(sorted) && multiset(sorted) == multiset(owned) && n <= |sorted|
    ensures |sorted| == |owned|
    ensures NewestFirst(sorted[..n])
    ensures forall k :: 0 <= k < n ==> sorted[..n][k] in owned
    ensures forall d, k :: d in owned && d !in sorted[..n] && 0 <= k < n ==>
      d.entry.timestamp <= sorted[..n][k].entry.timestamp
    ensures multiset(sorted[..n]) <= multiset(owned)
  {
    SameElements(sorted, owned);
    assert forall k :: 0 <= k < n ==> sorted[..n][k] in sorted;
    assert sorted == sorted[..n] + sorted[n..];
  }

  lemma SameElements(a: seq<Doc>, b: seq<Doc>)
    requires multiset(a) == multiset(b)
    ensures |a| == |b|
    ensures forall d :: d in a <==> d in b
  {
    assert |multiset(a)| == |a|;
    assert forall d :: d in a <==> d in multiset(a);
  }

  const HistoryLimit := 10

  /** `find({"username": u}).sort("timestamp", -1).limit(10)`: at most ten of
      the user's documents, newest first, and no document of the user that is
      left out is newer than one that is kept. */
  function Latest(store: seq<Doc>, username: string): (r: seq<Doc>)
    ensures |r| <= HistoryLimit
    ensures NewestFirst(r)
    ensures forall k :: 0 <= k < |r| ==> r[k] in store && OwnedBy(r[k], username)
    ensures |r| == if |Owned(store, username)| < HistoryLimit then |Owned(store, username)| else HistoryLimit
    ensures forall d, k :: d in store && OwnedBy(d, username) && d !in r && 0 <= k < |r| ==>
      d.entry.timestamp <= r[k].entry.timestamp
    ensures multiset(r) <= multiset(Owned(store, username))
  {
    var owned := Owned(store, username);
    var sorted := SortByTime(owned);
    var n := if |owned| < HistoryLimit then |owned| else HistoryLimit;
    NewestPrefix(owned, sorted, n);
    sorted[..n]
  }

  /** The first history entry is the user's newest document. */
  lemma LatestHeadIsNewest(store: seq<Doc>, username: string, d: Doc)
    requires d in store && OwnedBy(d, username)
    ensures |Latest(store, username)| > 0
    ensures d.entry.timestamp <= Latest(store, username)[0].entry.timestamp
  {
  }
}

=== FILE: text.dfy ===
/** String helpers the flows rely on: JavaScript's `String.prototype.trim`,
    Python's `str.lower` on ASCII letters, and the decimal rendering of a
    natural number inside a template literal. */
module Text {

  /** The characters JavaScript's `trim` removes: the WhiteSpace and
      LineTerminator code points of ECMAScript. */
  predicate IsJsWhitespace(c: char) {
    var n := c as int;
    || n == 0x09 || n == 0x0A || n == 0x0B || n == 0x0C || n == 0x0D
    || n == 0x20 || n == 0xA0 || n == 0x1680
    || (0x2000 <= n <= 0x200A)
    || n == 0x2028 || n == 0x2029 || n == 0x202F || n == 0x205F
    || n == 0x3000 || n == 0xFEFF
  }

  predicate AllWhitespace(s: string) {
    forall i :: 0 <= i < |s| ==> IsJsWhitespace(s[i])
  }

  /** `s` with its leading whitespace removed. */
  function TrimStart(s: string): (r: string)
    ensures |r| <= |s| && r == s[|s| - |r|..]
    ensures forall i :: 0 <= i < |s| - |r| ==> IsJsWhitespace(s[i])
    ensures r == [] || !IsJsWhitespace(r[0])
  {
    if |s| > 0 && IsJsWhitespace(s[0]) then TrimStart(s[1..]) else s
  }

  /** `s` with its trailing whitespace removed. */
  function TrimEnd(s: string): (r: string)
    ensures |r| <= |s| && r == s[..|r|]
    ensures forall i :: |r| <= i < |s| ==> IsJsWhitespace(s[i])
    ensures r == [] || !IsJsWhitespace(r[|r| - 1])
  {
    if |s| > 0 && IsJsWhitespace(s[|s| - 1]) then TrimEnd(s[..|s| - 1]) else s
  }

  /** JavaScript `s.trim()`: a contiguous piece of `s` that neither starts nor
      ends with whitespace, empty exactly when `s` is all whitespace. */
  function Trim(s: string): (r: string)
    ensures |r| <= |s|
    ensures r == [] <==> AllWhitespace(s)
    ensures r != [] ==> !IsJsWhitespace(r[0]) && !IsJsWhitespace(r[|r| - 1])
    ensures exists k :: PieceAt(s, r, k)
  {
    var t := TrimStart(s);
    TrimEnds(s, t);
    TrimPiece(s, t, |s| - |t|);
    TrimEnd(t)
  }

  /** `r` occurs in `s` at offset `k`, with only whitespace before and after. */
  predicate PieceAt(s: string, r: string, k: int) {
    && 0 <= k <= |s| - |r| && r == s[k..k + |r|]
    && (forall i :: 0 <= i < k ==> IsJsWhitespace(s[i]))
    && (forall i :: k + |r| <= i < |s| ==> IsJsWhitespace(s[i]))
  }

  lemma TrimEnds(s: string, t: string)
    requires t == TrimStart(s)
    ensures TrimEnd(t) == [] <==> AllWhitespace(s)
    ensures TrimEnd(t) != [] ==> !IsJsWhitespace(TrimEnd(t)[0])
  {
    var r := TrimEnd(t);
    assert r != [] ==> r[0] == t[0];
    assert t != [] ==> t[0] == s[|s| - |t|];
  }

  /** The trimmed text sits at `k` in `s` with only whitespace around it. */
  lemma TrimPiece(s: string, t: string, k: int)
    requires t == TrimStart(s) && k == |s| - |t|
    ensures PieceAt(s, TrimEnd(t), k)
  {
    PieceOfParts(s, t, TrimEnd(t), k);
  }

  /** A prefix `r` of the suffix `t == s[k..]` is a piece of `s` surrounded by
      whitespace when what precedes `t` and what follows `r` in `t` are. */
  lemma PieceOfParts(s: string, t: string, r: string, k: int)
    requires 0 <= k <= |s| && t == s[k..] && |r| <= |t| && r == t[..|r|]
    requires forall i :: 0 <= i < k ==> IsJsWhitespace(s[i])
    requires forall i :: |r| <= i < |t| ==> IsJsWhitespace(t[i])
    ensures PieceAt(s, r, k)
  {
    assert r == s[k..k + |r|];
    forall i | k + |r| <= i < |s|
      ensures IsJsWhitespace(s[i])
    {
      assert s[i] == t[i - k];
    }
  }

  lemma {:induction false} TrimIdempotent(s: string)
    ensures Trim(Trim(s)) == Trim(s)
  {
    var t := Trim(s);
    if t != [] {
      assert TrimStart(t) == t;
      assert TrimEnd(t) == t;
    }
  }

  /** Lower-casing of one character, as `str.lower` does for ASCII letters. */
  function LowerChar(c: char): (r: char)
    ensures 'A' <= c <= 'Z' ==> r as int == c as int + 32
    ensures !('A' <= c <= 'Z') ==> r == c
  {
    if 'A' <= c <= 'Z' then (c as int + 32) as char else c
  }

  predicate HasNoAsciiUpper(s: string) {
    forall i :: 0 <= i < |s| ==> !('A' <= s[i] <= 'Z')
  }

  /** Python `s.lower()` restricted to ASCII: same length, no upper-case ASCII
      letter left, every other character in place. */
  function Lower(s: string): (r: string)
    ensures |r| == |s|
    ensures HasNoAsciiUpper(r)
    ensures forall i :: 0 <= i < |s| && 'A' <= s[i] <= 'Z' ==> r[i] as int == s[i] as int + 32
    ensures forall i :: 0 <= i < |s| && !('A' <= s[i] <= 'Z') ==> r[i] == s[i]
  {
    seq(|s|, i requires 0 <= i < |s| => LowerChar(s[i]))
  }

  predicate IsDigit(c: char) {
    '0' <= c <= '9'
  }

  predicate AllDigits(s: string) {
    forall i :: 0 <= i < |s| ==> IsDigit(s[i])
  }

  function DigitChar(d: int): (c: char)
    requires 0 <= d < 10
    ensures IsDigit(c) && c as int - '0' as int == d
  {
    (d + '0' as int) as char
  }

  /** The decimal text of `n` as a template literal renders it: digits only,
      and no leading zero unless `n` is zero. */
  function NatToString(n: nat): (s: string)
    ensures |s| > 0 && AllDigits(s)
    ensures s[0] == '0' ==> n == 0
  {
    if n < 10 then [DigitChar(n)] else NatToString(n / 10) + [DigitChar(n % 10)]
  }

  /** The number a string of decimal digits denotes. */
  function DigitsValue(s: string): (n: nat)
    requires AllDigits(s)
  {
    if s == [] then 0
    else DigitsValue(s[..|s| - 1]) * 10 + (s[|s| - 1] as int - '0' as int)
  }

  /** Reading the rendered digits back gives the number: the rendering loses
      nothing. */
  lemma {:induction false} NatToStringRoundTrip(n: nat)
    ensures DigitsValue(NatToString(n)) == n
  {
    if n >= 10 {
      var s := NatToString(n);
      NatToStringRoundTrip(n / 10);
      assert s[..|s| - 1] == NatToString(n / 10);
    }
  }

  /** Different numbers render differently. */
  lemma NatToStringInjective(m: nat, n: nat)
    requires NatToString(m) == NatToString(n)
    ensures m == n
  {
    NatToStringRoundTrip(m);
    NatToStringRoundTrip(n);
  }
}
